=== FILE: README.md ===
# DeviceBridge fingerprint enrollment, modelled in Dafny

DeviceBridge is a Windows tray service. It puts a Digital Persona
fingerprint reader behind a small HTTP API, and a web page uses that API to
register employees. This project models the logic that decides what
happens during an enrollment, and proves properties of it. The model has
five parts, each in its own module:

- `Enroll` (`enroll.dfy`) is one capture session, `FingerprintEnroll`. It
  covers the device callbacks (`OnComplete`, `OnFingerTouch`,
  `OnFingerGone`, `OnSampleQuality`) and the progress snapshots they
  publish. It also covers the `TryEnroll` loop, which stops when the
  template is ready, when the token is cancelled, when there has been no
  activity for too long, or when serialising the template throws. The
  loop's `finally` block, which stops capture, is modelled too. The loop
  has two forms: the recursive reference `Pump`, and the method
  `RunTryEnroll`, written with early returns as the source writes it. The
  method is proved to compute the reference.
- `Controller` (`controller.dfy`) is the HTTP controller's registry of
  sessions. It maps each id to its latest progress entry and its
  cancellation token, and holds one device lock. Its operations are
  `enroll/start`, `enroll/progress`, `enroll/cancel`, `enroll/finish`, and
  the worker's report and `finally` steps. Each runs as one atomic step on
  a `Registry` value. An invariant says there is at most one worker, that
  the worker holds the lock, and that no template appears before the
  worker reports.
- `EnrollmentModels` and `SessionManager` (`enrollment_models.dfy`,
  `session_manager.dfy`) are the second, asynchronous variant. It has a
  session record with defaults, a background task per session, and a
  device lock. A periodic sweep evicts sessions whose start time is more
  than 65 seconds old.
- `RegistrationPanel` (`registration_panel.dfy`) is the WPF panel that
  captures two templates in sequence: index finger, then thumb. It models
  the progress arithmetic, the template list, advancing between the two
  templates, the RFID hand-off, and the reset path.
- `RegisterPage` (`register_page.dfy`) is the decision logic of the
  registration page. It covers the RFID field sanitiser, the
  keyboard-wedge burst counter, the register button and its hint, the
  capture buttons, and the overall fingerprint status line.

`Common` (`common.dfy`) holds the shared vocabulary. This is the phase
words, the snapshot record, the whitespace classes and the decimal
rendering of naturals.

The vendor SDK is outside the model. The SDK calls are feature extraction,
the template builder's reply, template serialisation, `StartCapture`, and
the capture session's constructor. Each appears as data inside the events
or as a flag. `StopCapture` is the exception: the model assumes it succeeds
(see "## Left out"). Time enters
as clock values. Each pass of the capture loop carries the clock its loop
test reads. Each device callback carries the clock its handler reads, which
is the time it stamps as activity. The controller and session-manager steps
take the clock as a parameter. Session ids enter as parameters, under a
freshness precondition.

Behaviours of the source that the model keeps, and that a reader may not
expect:

- In `TryEnroll`, `Start()` is called outside the `try`. If it throws,
  the `finally` block's `Stop()` does not run.
- While a session's token is still registered, `enroll/cancel` answers
  `true` each time it is called. A second cancel is not a no-op: it
  rewrites the same cancelled entry. The token is only dropped by the
  worker's `finally` block. After that, cancel answers `false`.
- A cancel that arrives after the worker has written `done` still answers
  `true`, as long as it comes before the worker's `finally`. It then
  overwrites the entry, so the template is lost. A cancel that arrives
  after `enroll/finish` has removed the entry, again before the worker's
  `finally`, re-creates the id as a cancelled entry.
- For an id the registry does not know, `enroll/progress` answers with a
  view that has no `cancelled` field. The model writes that field as an
  `Option`.
- `enroll/start` waits on the device lock instead of refusing. A second
  start made while a worker runs only returns once the lock is free.
- The session manager's progress handler forwards only progress, status
  and instruction. The event also carries a scans-left count, which the
  handler drops.
- The session manager evicts on `StartTime`. Progress updates do not
  postpone eviction, so a session can be evicted while its capture is
  still inside its inactivity window.
- `new FingerprintEnroll()` runs before the session manager stores the
  session. If the constructor throws, nothing is stored and no task
  starts. In the controller the constructor runs inside the worker's
  `try`, so a throw there is reported as an enrollment error.
- The capture session casts the builder's unsigned count to `int` and
  computes `(4 - needed) * 25` in unchecked `int` arithmetic. A count
  above four gives negative progress until the product overflows. From a
  count of 85,899,350 the product wraps to a large positive value, and the
  clamp shows 100.
- The panel computes progress with unsigned arithmetic: `(4 - needed) * 25`
  wraps modulo 2^32 before the clamp to 100. For the same count above
  four, the panel and the capture session can differ.
- The panel accepts a sample only when the extractor's feedback is `Good`.
  The service also accepts `None`.
- If the dialog between the two templates throws, the panel still
  advances to the backup template. It starts the backup capture and
  navigates to the RFID step while that capture is running.
- If a template fails to serialise, the panel re-enables the start button
  but does not stop the capture.
- The panel's "next template" timer can fire after the panel has already
  advanced. When it does, it changes nothing.

## Model

| member | source | states |
|---|---|---|
| Common.PhaseWord | DeviceBridge/Services/FingerprintEnroll.cs:148-282 | Each phase is written as a non-empty lower-case word, as the snapshots carry it. |
| Common.PhaseWordInjective | DeviceBridge/Services/FingerprintEnroll.cs:148-282 | Distinct phases are written as distinct words. |
| Common.ToInt32 | DeviceBridge/Services/FingerprintEnroll.cs:161 | The unchecked `int` narrowing gives a value in the `int` range that is congruent to its input modulo 2^32. It leaves values already in range unchanged. |
| Common.IsDotNetSpace | DeviceBridge/Controllers/FingerprintController.cs:120 | Reference definition of `Char.IsWhiteSpace`: the common set of space characters plus NEXT LINE. |
| Common.IsJsSpace | DeviceBridge/register.blade.php:244 | Reference definition of the white space `String.prototype.trim` removes: the common set plus the byte-order mark. |
| Common.SpaceClassesDiffer | DeviceBridge/Controllers/FingerprintController.cs:120 | The C# and JavaScript white-space classes differ exactly on NEXT LINE and the byte-order mark. |
| Common.IsBlank | DeviceBridge/Controllers/FingerprintController.cs:120 | Reference definition of `string.IsNullOrWhiteSpace` for a non-null string: every character is white space. |
| Common.NatToString | DeviceBridge/Services/FingerprintEnroll.cs:162 | The decimal rendering of a count is all digits, has no leading zero, and denotes the count (its `DecimalValue` is n). It has one digit exactly for counts below ten. |
| Common.NatToStringInjective | DeviceBridge/Services/FingerprintEnroll.cs:162 | Different counts are rendered as different text. |
| Enroll.Construct | DeviceBridge/Services/FingerprintEnroll.cs:15-23 | A new session has an empty builder, no finger detected, no result, no pending signal, is not capturing, and its activity clock starts now. |
| Enroll.SampleProgress | DeviceBridge/Services/FingerprintEnroll.cs:161 | Progress is at most 100 and is always a value an `int` can hold. For a scans-needed count within the four required scans it is a non-negative multiple of 25, and it is 100 exactly when no scan is needed. A larger count gives a negative value as long as `(4 - needed) * 25` fits in an `int`. |
| Enroll.SampleProgressWraps | DeviceBridge/Services/FingerprintEnroll.cs:161 | The `int` product overflows at a count of 85,899,350: the count before it gives negative progress, and that count gives 100. |
| Enroll.SampleProgressAntitone | DeviceBridge/Services/FingerprintEnroll.cs:161 | While `(4 - needed) * 25` fits in an `int`, progress never goes down as the count of scans still needed goes down. |
| Enroll.ScansLeft | DeviceBridge/Services/FingerprintEnroll.cs:162 | The scans-left value is the `(int)` cast of the unsigned count. It equals the count below 2^31 and is the count minus 2^32 from there on. |
| Enroll.SampleSnapshot | DeviceBridge/Services/FingerprintEnroll.cs:162 | The per-sample snapshot is a scanning snapshot. It carries the cast scans-left count and the progress that count gives. |
| Enroll.Announcement | DeviceBridge/Services/FingerprintEnroll.cs:145-149 | The detection notice is published exactly when no finger has been detected yet, and it is the detected snapshot. |
| Enroll.OnComplete | DeviceBridge/Services/FingerprintEnroll.cs:140-192 | Only the first sample after a reset announces detection. Detection survives unless the builder fails. For each branch, the contract gives the exact list of published snapshots. A rejected sample only marks the finger detected, and publishes the poor-quality or error snapshot after the announcement. An accepted sample refreshes activity. A builder exception publishes an error. Failed publishes the count, then the retry snapshot, and resets the builder. Ready publishes the count, then the ready snapshot, and stores the template, signals and stops capture. Any other status publishes only the count and records the fed features. |
| Enroll.OnFingerTouch | DeviceBridge/Services/FingerprintEnroll.cs:194-203 | A touch always refreshes activity. It publishes the touch snapshot exactly when no finger has been detected yet. |
| Enroll.OnFingerGone | DeviceBridge/Services/FingerprintEnroll.cs:205-213 | Lifting a finger never changes state. It publishes the place-again snapshot, with the cast count, exactly when a finger was detected and the builder is not ready. |
| Enroll.OnSampleQuality | DeviceBridge/Services/FingerprintEnroll.cs:217-225 | Only Good feedback has an effect. It refreshes activity and publishes one snapshot at 50 with the cast count. Any other feedback changes nothing. |
| Enroll.Deliver | DeviceBridge/Services/FingerprintEnroll.cs:43-46 | Activity is refreshed exactly by touches, good-quality feedback and accepted samples. A sample callback leaves a finger detected unless the builder failed, and any other callback keeps detection as it was. Only a sample callback can change the builder or the result. |
| Enroll.DeliverAll | DeviceBridge/Services/FingerprintEnroll.cs:286-290 | Reference definition of one pump pass. The callbacks the pass delivers run in order, each at its own clock reading. DeliverAllAppend and DeliverAllActivity state its properties. |
| Enroll.DeliverAllAppend | DeviceBridge/Services/FingerprintEnroll.cs:140-225 | Delivering two batches of callbacks one after the other is the same as delivering their concatenation. |
| Enroll.DeliverAllActivity | DeviceBridge/Services/FingerprintEnroll.cs:43-46 | After a pass, the activity clock is the clock reading of the last callback that counted as activity. When none did, it is unchanged. |
| Enroll.DetectionPersists | DeviceBridge/Services/FingerprintEnroll.cs:145-149 | Once a finger is detected, it stays detected through any batch that contains no builder failure. |
| Enroll.CaptureStopsOnlyOnReady | DeviceBridge/Services/FingerprintEnroll.cs:165-171 | Capture keeps running through any batch that contains no Ready sample. Only a Ready sample stops it from inside a callback. |
| Enroll.InWindow | DeviceBridge/Services/FingerprintEnroll.cs:277 | The loop test: fewer than the timeout's milliseconds have passed since the last activity, at the clock the test reads. |
| Enroll.Stop | DeviceBridge/Services/FingerprintEnroll.cs:119-122 | Stop always leaves the device not capturing and keeps the result. |
| Enroll.PumpTick | DeviceBridge/Services/FingerprintEnroll.cs:277-320 | One loop pass. It times out when the window has closed, and otherwise exits cancelled when the token is set. Otherwise it delivers the batch and consumes the signal. It returns bytes only after a signal with a stored template that serialises to those bytes. Conversely, when the pass leaves the signal set with a stored template, it exits with that template's bytes, or with a serialisation error when the template does not serialise. Without a signalled template it continues from the delivered state with the signal consumed. |
| Enroll.Pump | DeviceBridge/Services/FingerprintEnroll.cs:274-333 | Reference definition of the loop: passes run until one exits, and each exit runs the finally block's Stop. PumpStopsOnEveryExit, PumpExitShapes and SilentScriptTimesOut state its properties. |
| Enroll.ResetForEnroll | DeviceBridge/Services/FingerprintEnroll.cs:243-247 | Before capture starts, the result, detection and builder are cleared and activity starts at the call time. |
| Enroll.TryEnroll | DeviceBridge/Services/FingerprintEnroll.cs:241-334 | Reference definition of TryEnroll: reset, then Start outside the `try`, then the loop. TryEnrollNeverLeavesCapturing and RunTryEnroll state its properties. |
| Enroll.PumpStopsOnEveryExit | DeviceBridge/Services/FingerprintEnroll.cs:328-333 | Stop runs exactly on the loop's exits, and after it the device is not capturing. |
| Enroll.TryEnrollNeverLeavesCapturing | DeviceBridge/Services/FingerprintEnroll.cs:241-334 | Every way TryEnroll ends leaves the device not capturing. It ends with a start exception exactly when Start throws. Stop runs exactly on the endings other than a start exception and a script that ran out: a throwing Start is outside the `try`, so it skips the `finally`. |
| Enroll.PumpExitShapes | DeviceBridge/Services/FingerprintEnroll.cs:279-284 | A cancelled run publishes the cancelled snapshot last. A successful run returns the bytes of the stored template. |
| Enroll.ReadySampleEnrolls | DeviceBridge/Services/FingerprintEnroll.cs:308-319 | A pass in the window, with no cancel and whose last callback is a Ready sample whose template serialises, makes TryEnroll return exactly those bytes. |
| Enroll.RunTryEnroll | DeviceBridge/Services/FingerprintEnroll.cs:241-334 | The early-return loop computes exactly the reference run. It reports success exactly when the run enrolled, and hands out bytes only then. |
| Enroll.PumpWithoutTokenNeverCancels | DeviceBridge/Services/FingerprintEnroll.cs:236-239 | Without a cancellation request the loop never exits through the cancel branch. |
| Enroll.TryEnrollWindow | DeviceBridge/Services/FingerprintEnroll.cs:241-277 | The window is measured from TryEnroll's own start. A first loop test at least the window after the start times out. Without callbacks or cancellation, the run times out exactly when some loop test comes at least the window after the start. |
| Enroll.SilentScriptTimesOut | DeviceBridge/Services/FingerprintEnroll.cs:277 | With no callbacks the loop publishes nothing. It times out exactly when some tick falls outside the inactivity window, and otherwise keeps waiting. |
| Enroll.FourGoodScansEnroll | DeviceBridge/Services/FingerprintEnroll.cs:145-171 | Four good scans, each at its own time, publish progress 10, 25, 50, 75, 100 and then 85. TryEnroll then returns the template bytes, capture is stopped, and the last activity is the last scan's time. |
| Controller.EmptyRegistryInv | DeviceBridge/Controllers/FingerprintController.cs:15-17 | The empty registry with a free lock satisfies the single-worker invariant. |
| Controller.InitialState | DeviceBridge/Controllers/FingerprintController.cs:33 | A new entry is waiting at 0, with no scans-left count and no template. |
| Controller.CancelledState | DeviceBridge/Controllers/FingerprintController.cs:135-137 | A cancelled entry is at 0, in the cancelled phase, with no template. |
| Controller.FromRun | DeviceBridge/Controllers/FingerprintController.cs:69 | The worker reports success only with the bytes TryEnroll returned. Exceptions from Start or from serialising propagate to the worker's catch. |
| Controller.WorkerRun | DeviceBridge/Controllers/FingerprintController.cs:69 | The window is 30000 ms from the start: a first loop test 30000 ms or more after the start times out. A run without callbacks or cancellation publishes nothing, and times out exactly when some loop test comes 30000 ms or more after the start. A run with no cancel request never ends cancelled. It ends with a start exception exactly when Start throws, and a finished run leaves the device not capturing. |
| Controller.ReportedState | DeviceBridge/Controllers/FingerprintController.cs:70-100 | The phase is done exactly when the worker returned success with bytes, and then the entry holds the bytes at 100. It is cancelled exactly when the worker did not succeed and the token was set. Every other ending is failed at 0 with no template, and an exception keeps its message. |
| Controller.AcquireAndQueue | DeviceBridge/Controllers/FingerprintController.cs:40-42 | Taking the lock leaves the entries and tokens alone. A queued worker holds the lock, and a failure to queue releases it. |
| Controller.EnrollStart | DeviceBridge/Controllers/FingerprintController.cs:30-115 | Start publishes a waiting entry and a live token for the new id and keeps every other entry. It does not answer while the lock is held. It answers with the id only once a worker is running for it. |
| Controller.ResumeStart | DeviceBridge/Controllers/FingerprintController.cs:40-114 | A blocked start resumes when the lock frees. It answers with its id, or with the queueing error. |
| Controller.WorkerProgress | DeviceBridge/Controllers/FingerprintController.cs:62-67 | A snapshot overwrites the session's progress, phase, message and count. It creates the entry if it is missing, keeps its template, and touches nothing else. |
| Controller.WorkerReport | DeviceBridge/Controllers/FingerprintController.cs:70-100 | The outcome is written to the session's entry, decided by whether the token was cancelled. Tokens and lock are untouched. |
| Controller.Release | DeviceBridge/Controllers/FingerprintController.cs:103 | Releasing always leaves the lock free. |
| Controller.WorkerExit | DeviceBridge/Controllers/FingerprintController.cs:101-105 | The worker's finally frees the lock and drops its token, and leaves every progress entry in place. |
| Controller.EnrollProgress | DeviceBridge/Controllers/FingerprintController.cs:118-126 | A blank id is refused, and only a blank id. A known id shows its entry, with the done, failed and cancelled flags matching its phase. An unknown id gets a waiting view with no cancelled field. |
| Controller.EnrollCancel | DeviceBridge/Controllers/FingerprintController.cs:129-141 | A blank id is refused. Otherwise cancel answers whether a token is live, and only when one is live does it cancel the token and write a cancelled entry. |
| Controller.EnrollFinish | DeviceBridge/Controllers/FingerprintController.cs:144-155 | Finish succeeds exactly for a known id whose entry holds a template. It then returns those bytes and removes only that entry. It refuses an incomplete entry and an unknown id with distinct messages, and leaves tokens and lock alone. |
| Controller.SingleWorker | DeviceBridge/Controllers/FingerprintController.cs:15 | A worker map of at most one entry that holds an id holds exactly that id. |
| Controller.StartPreservesInv | DeviceBridge/Controllers/FingerprintController.cs:30-115 | Start keeps the single-worker invariant. |
| Controller.ResumePreservesInv | DeviceBridge/Controllers/FingerprintController.cs:40-42 | A blocked start resuming keeps the single-worker invariant. |
| Controller.ReportPreservesInv | DeviceBridge/Controllers/FingerprintController.cs:70-100 | The worker's report keeps the single-worker invariant. |
| Controller.ExitPreservesInv | DeviceBridge/Controllers/FingerprintController.cs:101-105 | The worker's finally keeps the single-worker invariant. |
| Controller.ProgressPreservesInv | DeviceBridge/Controllers/FingerprintController.cs:62-67 | A progress snapshot keeps the single-worker invariant. |
| Controller.NextPreservesInv | DeviceBridge/Controllers/FingerprintController.cs:15-155 | Every enabled step of any caller or worker keeps the invariant: at most one worker, the worker holds the lock, and no template exists before the worker reports. |
| Controller.OnlyFinishRemoves | DeviceBridge/Controllers/FingerprintController.cs:151 | No step except a successful finish removes a progress entry, and a successful finish removes exactly its own. |
| Controller.FinishAtMostOnce | DeviceBridge/Controllers/FingerprintController.cs:147-154 | After a successful finish, a second finish for the same id reports it unknown. |
| Controller.CancelAfterWorkerExit | DeviceBridge/Controllers/FingerprintController.cs:104 | Once the worker's finally has dropped the token, cancel answers false and changes nothing. |
| Controller.CancelRepeatsWhileLive | DeviceBridge/Controllers/FingerprintController.cs:132-138 | While the token is live, a second cancel answers true again. It is not a no-op. |
| Controller.SuccessWinsOverPendingCancel | DeviceBridge/Controllers/FingerprintController.cs:70-75 | A worker that returns bytes publishes done with those bytes even when cancel was requested. |
| Controller.HappyPath | DeviceBridge/Controllers/FingerprintController.cs:30-155 | Start on a free device, a successful run, the worker's exit, and one finish: the poller sees done, finish returns the bytes and removes the entry, and the lock is free. |
| Controller.RunOutcomeReported | DeviceBridge/Controllers/FingerprintController.cs:69-100 | Each way a run ends reaches the poller as follows. Bytes become done with those bytes. A cancelled token becomes cancelled. A timeout becomes failed with the timeout message. An exception becomes failed with its message. |
| Controller.CancelAfterReportLosesTemplate | DeviceBridge/Controllers/FingerprintController.cs:132-149 | A cancel between the worker's done and its finally answers true and erases the template, so finish then says the enrollment is not complete. |
| Controller.CancelAfterFinishRecreates | DeviceBridge/Controllers/FingerprintController.cs:132-153 | A finish between the worker's done and its finally removes the entry. A cancel after it answers true and re-creates the id as cancelled. |
| EnrollmentModels.DefaultRequest | DeviceBridge/Models/EnrollmentModels.cs:3-7 | An empty request asks for the index finger at quality threshold 60. |
| EnrollmentModels.NewSession | DeviceBridge/Models/EnrollmentModels.cs:28-42 | A new session is waiting at 0 with the place-finger instruction, has no template, quality or error, and is active. |
| SessionManager.StartEnrollmentSession | DeviceBridge/Services/EnrollmentSessionManager.cs:25-43 | When the capture session's constructor throws, start returns no id and the manager is unchanged. Otherwise it stores a new default session under the fresh id, queues its task, returns the id, and leaves the lock and the running task alone. |
| SessionManager.GetSession | DeviceBridge/Services/EnrollmentSessionManager.cs:45-49 | Lookup finds a session exactly when the id is stored, and then returns that session. |
| SessionManager.RemoveSession | DeviceBridge/Services/EnrollmentSessionManager.cs:51-57 | Removal deletes exactly that id. It disposes the session that was stored, and disposes nothing when the id was absent. |
| SessionManager.RemoveSessionIdempotent | DeviceBridge/Services/EnrollmentSessionManager.cs:51-57 | Removing twice is removing once. The second call finds and disposes nothing. |
| SessionManager.AcquireDevice | DeviceBridge/Services/EnrollmentSessionManager.cs:64 | A task takes the free lock and moves from waiting to running. Sessions are untouched. |
| SessionManager.Forward | DeviceBridge/Services/EnrollmentSessionManager.cs:66-71 | The handler copies progress, status and instruction into the background task's session and nothing else. It changes nothing if the session was already removed. |
| SessionManager.RunService | DeviceBridge/Services/EnrollmentSessionManager.cs:77-91 | The background task's run uses the token-less overload with a 60000 ms window, so it never ends cancelled. A first loop test 60000 ms or more after the start times out. A run without callbacks publishes nothing, and times out exactly when some loop test comes 60000 ms or more after the start. It ends with a start exception exactly when Start throws. |
| SessionManager.FromRun | DeviceBridge/Services/EnrollmentSessionManager.cs:79-93 | The background task succeeds exactly when TryEnroll returned bytes, and then has those bytes. It throws exactly when Start or serialisation threw. |
| SessionManager.Conclude | DeviceBridge/Services/EnrollmentSessionManager.cs:94-121 | The session ends inactive with its identity kept. It is completed exactly when bytes came back, and then has 100, the bytes and quality 85. Otherwise it is failed at 0 with the timeout error, or with the device-error message when something threw. |
| SessionManager.EndProcess | DeviceBridge/Services/EnrollmentSessionManager.cs:94-121 | The background task's end concludes its own session if it is still stored, touches no other session, frees the lock, and leaves the running set. |
| SessionManager.Expired | DeviceBridge/Services/EnrollmentSessionManager.cs:126-127 | A session is expired when it started strictly before the cutoff, 65 seconds before the sweep. |
| SessionManager.Survivors | DeviceBridge/Services/EnrollmentSessionManager.cs:126-127 | A session survives the sweep exactly when it started no more than 65 seconds ago, and survives unchanged. |
| SessionManager.CleanupExpiredSessions | DeviceBridge/Services/EnrollmentSessionManager.cs:124-132 | The sweep keeps exactly the survivors and disposes exactly the expired ids. The two sets are disjoint and together cover every stored id. |
| SessionManager.SweepKeepsYoungSessions | DeviceBridge/Services/EnrollmentSessionManager.cs:126-127 | A session that has not expired is still there after the sweep, unchanged. |
| SessionManager.ActivityDoesNotDelayEviction | DeviceBridge/Services/EnrollmentSessionManager.cs:66-71 | Progress updates and the background task's end do not change whether a session is expired. Eviction depends only on the start time. |
| SessionManager.QuietCaptureTimesOutBeforeEviction | DeviceBridge/Services/EnrollmentSessionManager.cs:17-126 | The eviction age is the 60-second capture window plus five seconds. A capture whose last activity came at most five seconds after its session started has timed out by the time its session counts as expired. |
| SessionManager.SweepEvictsLiveCapture | DeviceBridge/Services/EnrollmentSessionManager.cs:17-127 | A capture started after its session and touched less than 60 seconds ago is inside its inactivity window. Once more than 65 seconds have passed since the session started, the sweep still removes the session. |
| SessionManager.SweepIdempotent | DeviceBridge/Services/EnrollmentSessionManager.cs:124-132 | A second sweep at the same time removes nothing more. |
| SessionManager.NextPreservesInv | DeviceBridge/Services/EnrollmentSessionManager.cs:18-132 | Every enabled step keeps the invariant: at most one running task, the lock is held exactly while one runs, and no task is both waiting and running. |
| SessionManager.CompletedSessionVisible | DeviceBridge/Services/EnrollmentSessionManager.cs:94-101 | After a successful task, a poll finds the session completed with the bytes, and the lock is free. |
| RegistrationPanel.Initial | DeviceBridge/FingerprintRegistrationPanel.xaml.cs:16-24 | A new panel is on template 1, has no templates, is not capturing, and has start enabled. |
| RegistrationPanel.FingerLabel | DeviceBridge/FingerprintRegistrationPanel.xaml.cs:254-265 | Template 1 is the primary index finger and template 2 is the backup thumb. Any other index gets a numbered label. |
| RegistrationPanel.FingerLabelInjective | DeviceBridge/FingerprintRegistrationPanel.xaml.cs:254-265 | Different template indices never share a label. |
| RegistrationPanel.PanelProgress | DeviceBridge/FingerprintRegistrationPanel.xaml.cs:232 | The panel's progress always lies between 0 and 100. It agrees with the capture session's formula within the four required scans. Above four, it is 100 as long as `(needed - 4) * 25` is at most 2^32 - 100, so that the unsigned wrap-around leaves at least 100. |
| RegistrationPanel.PanelStricterThanService | DeviceBridge/FingerprintRegistrationPanel.xaml.cs:458-465 | Every sample the panel accepts the service accepts too. A sample with no feedback is accepted by the service and refused by the panel. |
| RegistrationPanel.MakeTemplate | DeviceBridge/FingerprintRegistrationPanel.xaml.cs:267-279 | A stored template carries its index, the bytes, the finger label of that index, and quality 85. |
| RegistrationPanel.StopCapture | DeviceBridge/FingerprintRegistrationPanel.xaml.cs:467-471 | Stopping only clears the capturing flag. |
| RegistrationPanel.Abort | DeviceBridge/FingerprintRegistrationPanel.xaml.cs:303-337 | A failure stops capture and re-enables start, and keeps the template list and index. |
| RegistrationPanel.Begin | DeviceBridge/FingerprintRegistrationPanel.xaml.cs:172-207 | Starting capture for the current template resets progress to 0 and captures exactly when the device started. Start stays enabled when the device failed. |
| RegistrationPanel.Start | DeviceBridge/FingerprintRegistrationPanel.xaml.cs:98-117 | The start button discards all templates, returns to template 1 and begins capture. Start stays enabled exactly when the device failed. |
| RegistrationPanel.NextTemplate | DeviceBridge/FingerprintRegistrationPanel.xaml.cs:119-134 | Next moves to the following template and starts its capture only below the maximum of two. At the maximum it changes nothing. |
| RegistrationPanel.ProceedToRfid | DeviceBridge/FingerprintRegistrationPanel.xaml.cs:416-431 | With no template captured, moving to RFID is refused and nothing changes. Otherwise the RFID step is shown when the panel has a parent window. |
| RegistrationPanel.AfterTemplate | DeviceBridge/FingerprintRegistrationPanel.xaml.cs:363-414 | After a capture the template list is kept. A throwing prompt after the first template still starts the backup and moves to RFID. Otherwise the panel moves on as the post-template options say. |
| RegistrationPanel.StoreTemplate | DeviceBridge/FingerprintRegistrationPanel.xaml.cs:238-291 | A Ready sample appends exactly one template, for the current index, to those already held. Below the maximum and with a prompt that does not throw, it moves to the next index with capture running exactly when Start succeeds. At the maximum it keeps the index, stops capture, and shows the RFID step once when there is a parent window. |
| RegistrationPanel.OnComplete | DeviceBridge/FingerprintRegistrationPanel.xaml.cs:210-338 | A template is added exactly when the builder is ready and the template serialises. A sample the panel rejects changes nothing. An exception or a builder failure stops capture and re-enables start, and a failure resets progress. Intermediate statuses only update progress. A Ready template that does not serialise only updates progress and re-enables start, with capture left running. After the last template the panel goes on to RFID. |
| RegistrationPanel.TimerFires | DeviceBridge/FingerprintRegistrationPanel.xaml.cs:373-390 | The delayed next-template timer consumes one pending timer and acts as the next button. |
| RegistrationPanel.GetFingerprintBytes | DeviceBridge/FingerprintRegistrationPanel.xaml.cs:480-484 | The primary bytes are present exactly when a template exists, and they are the first template's bytes. |
| RegistrationPanel.GetFingerprintTemplates | DeviceBridge/FingerprintRegistrationPanel.xaml.cs:486-490 | The returned list has the same templates in the same order. |
| RegistrationPanel.ResetPanel | DeviceBridge/FingerprintRegistrationPanel.xaml.cs:493-520 | Reset returns to template 1 with no templates, no capture, start enabled and progress 0, and keeps the parent link. |
| RegistrationPanel.StartAndResetAgree | DeviceBridge/FingerprintRegistrationPanel.xaml.cs:98-117 | The start button and reset agree on the template list and index they leave. |
| RegistrationPanel.InitialInv | DeviceBridge/FingerprintRegistrationPanel.xaml.cs:16-24 | A new panel satisfies the template invariant. |
| RegistrationPanel.InvBoundsTemplates | DeviceBridge/FingerprintRegistrationPanel.xaml.cs:24 | Under the invariant, there are never more templates than the current index, nor more than two. |
| RegistrationPanel.NextTemplatePreservesInv | DeviceBridge/FingerprintRegistrationPanel.xaml.cs:119-134 | Next keeps the template invariant. |
| RegistrationPanel.AfterTemplatePreservesInv | DeviceBridge/FingerprintRegistrationPanel.xaml.cs:363-414 | The post-template path keeps the template invariant. |
| RegistrationPanel.OnCompletePreservesInv | DeviceBridge/FingerprintRegistrationPanel.xaml.cs:210-338 | A sample callback keeps the template invariant. |
| RegistrationPanel.Apply | DeviceBridge/FingerprintRegistrationPanel.xaml.cs:98-520 | Reference definition of one panel action: each button, timer or sample callback dispatches to its handler. ApplyPreservesInv states its property. |
| RegistrationPanel.ApplyPreservesInv | DeviceBridge/FingerprintRegistrationPanel.xaml.cs:98-520 | Every panel action keeps the invariant. The index stays in 1..2, and template indices are strictly increasing and never beyond the current index. Each template's label and quality match its index. While capturing, every stored template belongs to an earlier index. |
| RegistrationPanel.TwoTemplatesThenRfid | DeviceBridge/FingerprintRegistrationPanel.xaml.cs:98-431 | Two ready captures with a shown prompt store the primary and the backup with their labels and move on to RFID. |
| RegistrationPanel.TimerAfterAdvanceIsNoOp | DeviceBridge/FingerprintRegistrationPanel.xaml.cs:119-134 | A timer that fires after the panel reached the last template changes nothing but the pending count. |
| RegistrationPanel.PromptFailureProceedsWithOneTemplate | DeviceBridge/FingerprintRegistrationPanel.xaml.cs:363-398 | If the prompt throws after the first template, the panel moves to RFID with only the primary stored while the backup capture runs. |
| RegisterPage.UpperHex | DeviceBridge/register.blade.php:555 | A hex digit is upper-cased: digits and capitals stay, and lower-case a-f move to A-F. |
| RegisterPage.HexOnly | DeviceBridge/register.blade.php:555 | The filter keeps only upper-case hex digits and never lengthens the input. It is empty exactly when the input has no hex digit. A single character becomes its upper-cased self when it is a hex digit, and nothing otherwise; with HexOnlyAppend this fixes the filter on every input. |
| RegisterPage.HexOnlyAppend | DeviceBridge/register.blade.php:555 | Filtering distributes over concatenation. |
| RegisterPage.HexOnlyKeepsUpperHex | DeviceBridge/register.blade.php:555 | Text that is already upper-case hex passes through unchanged. |
| RegisterPage.HexOnlyIdempotent | DeviceBridge/register.blade.php:555 | Filtering twice is filtering once. |
| RegisterPage.TrimStart | DeviceBridge/register.blade.php:556 | Leading trim drops exactly a prefix of whitespace and leaves a non-space first character. |
| RegisterPage.TrimEnd | DeviceBridge/register.blade.php:556 | Trailing trim drops exactly a suffix of whitespace and leaves a non-space last character. |
| RegisterPage.TrimSlice | DeviceBridge/register.blade.php:556 | The trimmed text is a contiguous slice of the input, and everything cut on either side is whitespace. |
| RegisterPage.Trim | DeviceBridge/register.blade.php:556 | Trim never lengthens the text, keeps only characters of the input, and leaves no whitespace at either end. It is empty exactly when the input is all whitespace. It is the contiguous slice of the input between the leading and trailing whitespace it removes. |
| RegisterPage.TrimOfTrimmed | DeviceBridge/register.blade.php:556 | Text with no whitespace at either end is unchanged by trim. |
| RegisterPage.TrimIdempotent | DeviceBridge/register.blade.php:556 | Trimming twice is trimming once. |
| RegisterPage.TrimKeepsNoHex | DeviceBridge/register.blade.php:556 | Trim cannot introduce a hex digit. |
| RegisterPage.Sanitize | DeviceBridge/register.blade.php:553-557 | Input containing a hex digit becomes its non-empty upper-case hex digits. Other input falls back to the trimmed text. |
| RegisterPage.SanitizeIdempotent | DeviceBridge/register.blade.php:553-557 | Sanitising twice is sanitising once. |
| RegisterPage.RewriteField | DeviceBridge/register.blade.php:559-560 | The field becomes its sanitised value. It is rewritten exactly when that value differs from what was typed. |
| RegisterPage.RewriteSettles | DeviceBridge/register.blade.php:559-560 | The value written back is already sanitised. Sanitising it again gives the same text, so the handler would not write again. |
| RegisterPage.ReaderLineSanitizes | DeviceBridge/register.blade.php:553-557 | A reader line with lower-case hex and a CR/LF ending becomes the upper-case UID. |
| RegisterPage.KeyDown | DeviceBridge/register.blade.php:544-551 | A key faster than 35 ms after the last one extends the burst by one. A pause longer than 400 ms clears it. A gap in between keeps the count. The last timestamp is always updated. |
| RegisterPage.BurstCountNonNegative | DeviceBridge/register.blade.php:544-551 | The burst count never goes negative. |
| RegisterPage.KeyDowns | DeviceBridge/register.blade.php:544-551 | After a run of keys the last key's time is recorded. From a non-negative count, the count stays non-negative and grows by at most one per key. |
| RegisterPage.FastRunCounts | DeviceBridge/register.blade.php:544-551 | A run of keys each under 35 ms apart adds one per key and ends at the last key's time. |
| RegisterPage.ModerateTypingKeepsCount | DeviceBridge/register.blade.php:544-551 | Keys typed between 35 and 400 ms apart neither extend nor clear the count. |
| RegisterPage.PauseForgetsHistory | DeviceBridge/register.blade.php:544-551 | After a pause longer than 400 ms, what happened before the pause no longer matters. |
| RegisterPage.RfidDetected | DeviceBridge/register.blade.php:561-564 | The page reports RFID input exactly when the sanitised value is non-empty and the burst count is at least four. |
| RegisterPage.WedgeRecognised | DeviceBridge/register.blade.php:538-566 | Four or more fast keys that leave a hex value in the field make the page report RFID input. |
| RegisterPage.ValueOrEmpty | DeviceBridge/register.blade.php:246-247 | A missing field reads as empty text, and a present one as its value. |
| RegisterPage.RegisterEnabled | DeviceBridge/register.blade.php:243-251 | Register is enabled exactly when the trimmed name, employee id, department and RFID are non-empty and a primary template exists. |
| RegisterPage.BackupNeverRequired | DeviceBridge/register.blade.php:250 | Whether register is enabled never depends on the backup template. |
| RegisterPage.RegisterHint | DeviceBridge/register.blade.php:253-261 | The hint says ready exactly when register is enabled. Otherwise a missing primary comes first, then a missing RFID, then the other fields. |
| RegisterPage.CaptureButtons | DeviceBridge/register.blade.php:286-336 | Without the device, or during an enrollment, no capture button is enabled. Otherwise primary capture is enabled exactly when there is no primary, and backup exactly when there is a primary but no backup. |
| RegisterPage.OneCaptureButtonAtMost | DeviceBridge/register.blade.php:286-336 | The two capture buttons are never enabled together. |
| RegisterPage.FingerprintStatus | DeviceBridge/register.blade.php:264-281 | The status is "both" exactly with both templates, and "primary" exactly with only the primary. Without a primary it asks for a capture when the device is connected, and for the bridge otherwise. |
| RegisterPage.PrimaryDominatesStatus | DeviceBridge/register.blade.php:264-281 | With a primary, the status ignores the connection. Without one, it ignores the backup. |

## Left out

- The vendor SDK (`Capture`, `Enrollment`, `FeatureExtraction`, `Template.Serialize`, `ReadersCollection`) is not modelled as code. What it returns appears as data inside each sample, or as a flag: extraction feedback, builder status and count, and whether serialisation, `StartCapture` or the capture session's constructor throws. In the controller the constructor runs inside the worker's `try`, so its exception is one of the worker's reported exceptions.
- Enroll.Stop, Enroll.PumpStopsOnEveryExit and Enroll.TryEnrollNeverLeavesCapturing: the source swallows a throwing `StopCapture`, both in `Stop` and in the Ready branch of `OnComplete`. The model assumes `StopCapture` always succeeds, so "not capturing" after a stop means that `StopCapture` was called, not that the device stopped. What the device does after a failed `StopCapture` is SDK behaviour outside the model.
- Enroll.FreshBuilder: a new or cleared vendor builder is assumed to need four scans, as the source's own `(4 - needed)` assumes. This count is not an input.
- Base64 encoding of templates is left out. Templates are kept as bytes throughout, because no property here depends on the encoding.
- Wall clocks, GUIDs and timers are inputs. Each pass of the capture loop carries the clock of its loop test, and each callback carries the clock its handler reads. The model does not require these readings to increase. Fresh ids are a precondition of start. The panel's countdown timer is one "timer fires" event.
- Concurrency is left out. The thread pool, the STA worker thread, `Join` and the WinForms message pump become one step per callback, report or exit, with every interleaving allowed. Races finer than those steps, such as two `AddOrUpdate` calls interleaving inside one update, are not modelled. The cancel flags of a capture script are free inputs, not tied to the registry's cancel tokens, and a worker report may carry any run result; this over-approximates the controller's runs.
- The focus handling inside the loop is left out: the hidden form, `BringToFront`, the `% 2000` focus nudge, and logging. None of it changes any state the loop decides on.
- The loop's 50 ms sleep is left out. Ticks are as far apart as the caller's clock values say.
- WPF rendering, labels, message boxes, the photo fields, `_isDeviceConnected` and `_fingerprintTemplateBytes` are left out. They only display state the model already holds.
- Starting the panel again while a capture is still running leaves an orphaned capture object, which is not modelled. The model has a single capture flag.
- DOM access, fetch calls, CSS classes and the page's messages other than those listed in the model are left out, because they are presentation.
- The hosting code (`Program`, `Startup`, `MainForm`), the test endpoints, device diagnostics, `FocusHost` and `AssemblyResolver` are not part of this model.
- `IsComplete` and `Dispose` are not modelled. Disposal is only the removal of a session.
- The response shapes `StartEnrollmentResponse` and `EnrollmentProgressResponse` are not modelled, because no operation of the core builds them.
- Enroll.SampleProgressAntitone: progress is antitone only while `(4 - needed) * 25` fits in an `int`. Beyond that the product wraps, and SampleProgressWraps shows a larger count giving more progress.
- Controller.EnrollStart and SessionManager.StartEnrollmentSession require a fresh id. A collision of the 8-character id in the controller would overwrite an entry, and that case is excluded rather than modelled.
- RegistrationPanel.GetFingerprintTemplates: the source returns a copy of its list. In a value model every result is already a copy, so the contract states only equality of contents.

=== FILE: common.dfy ===
/**
  Vocabulary shared by every component of the device bridge: optional values,
  byte strings, the phase words of a progress snapshot, and the character
  classes the bridge (C#) and the registration page (JavaScript) treat as
  white space.
 */
module Common {

  /** A value that may be absent; stands for the source's nullable references. */
  datatype Option<+T> = None | Some(value: T)

  /** The last element of a non-empty sequence. */
  function Last<T>(s: seq<T>): T
    requires |s| > 0
  {
    s[|s| - 1]
  }

  /** The head and tail of a concatenation whose left part is not empty. */
  lemma AppendHeadTail<T>(a: seq<T>, b: seq<T>)
    requires a != []
    ensures (a + b)[0] == a[0] && (a + b)[1..] == a[1..] + b
  {
  }

  /** Concatenation is associative. */
  lemma AppendAssoc<T>(x: seq<T>, y: seq<T>, z: seq<T>)
    ensures x + (y + z) == (x + y) + z
  {
  }

  type Byte = b: int | 0 <= b < 256

  /** The number of values of a 32-bit machine word. */
  const UintRange: int := 0x1_0000_0000

  /** A C# `uint`, such as the vendor builder's count of features still needed. */
  type UInt32 = n: int | 0 <= n < 0x1_0000_0000

  /**
    Unchecked narrowing to a C# `int`: the value in [-2^31, 2^31) congruent
    to x modulo 2^32. It is the `(int)` cast of a `uint`, and the result of
    `int` arithmetic that overflows.
   */
  function ToInt32(x: int): (r: int)
    ensures -0x8000_0000 <= r < 0x8000_0000
    ensures (x - r) % UintRange == 0
    ensures -0x8000_0000 <= x < 0x8000_0000 ==> r == x
  {
    var m := x % UintRange;
    if m < 0x8000_0000 then m else m - UintRange
  }

  /** Serialized templates and extracted features are opaque byte strings. */
  type Bytes = seq<Byte>

  /**
    The phase words that appear in snapshots. `Done` is the controller's
    terminal success word and `Completed` is the session manager's; the
    capture session itself only ever emits the other five.
   */
  datatype Phase = Waiting | Scanning | Processing | Done | Completed | Failed | Cancelled

  /** The lower-case word the source writes for each phase. */
  function PhaseWord(p: Phase): (w: string)
    ensures |w| > 0 && forall i :: 0 <= i < |w| ==> 'a' <= w[i] <= 'z'
  {
    match p
    case Waiting => "waiting"
    case Scanning => "scanning"
    case Processing => "processing"
    case Done => "done"
    case Completed => "completed"
    case Failed => "failed"
    case Cancelled => "cancelled"
  }

  /** Distinct phases are written as distinct words, so comparing words is comparing phases. */
  lemma PhaseWordInjective(p: Phase, q: Phase)
    ensures PhaseWord(p) == PhaseWord(q) <==> p == q
  {
  }

  /**
    One progress notification: percent, phase, caller-facing instruction and
    the optional number of scans still needed.
   */
  datatype Snapshot = Snapshot(progress: int, phase: Phase, message: string, scansLeft: Option<int>)

  /** Characters both .NET's Char.IsWhiteSpace and ECMAScript's String.prototype.trim treat as space. */
  predicate IsCommonSpace(c: char)
  {
    var n := c as int;
    (0x09 <= n <= 0x0D) || n == 0x20 || n == 0xA0 || n == 0x1680 ||
    (0x2000 <= n <= 0x200A) || n == 0x2028 || n == 0x2029 || n == 0x202F ||
    n == 0x205F || n == 0x3000
  }

  /** Char.IsWhiteSpace: the common set plus NEXT LINE (U+0085). */
  predicate IsDotNetSpace(c: char)
  {
    IsCommonSpace(c) || c as int == 0x85
  }

  /** ECMAScript white space and line terminators: the common set plus the BOM (U+FEFF). */
  predicate IsJsSpace(c: char)
  {
    IsCommonSpace(c) || c as int == 0xFEFF
  }

  /** The two white-space classes differ exactly on NEXT LINE and the byte-order mark. */
  lemma SpaceClassesDiffer(c: char)
    ensures IsDotNetSpace(c) != IsJsSpace(c) <==> c as int == 0x85 || c as int == 0xFEFF
  {
  }

  /** string.IsNullOrWhiteSpace for a non-null string: empty or white space only. */
  predicate IsBlank(s: string)
  {
    forall i :: 0 <= i < |s| ==> IsDotNetSpace(s[i])
  }

  /** The decimal digit character for d. */
  function DigitChar(d: nat): (c: char)
    requires d < 10
    ensures '0' <= c <= '9'
    ensures c as int - '0' as int == d
  {
    (d + '0' as int) as char
  }

  /** The number a string of decimal digits denotes, most significant digit first. */
  function DecimalValue(r: string): nat
    requires forall i :: 0 <= i < |r| ==> '0' <= r[i] <= '9'
    decreases |r|
  {
    if r == [] then 0
    else DecimalValue(r[..|r| - 1]) * 10 + (r[|r| - 1] as int - '0' as int)
  }

  /** Decimal rendering of a count, as string interpolation writes it: no leading zero, denoting n. */
  function NatToString(n: nat): (r: string)
    ensures 1 <= |r|
    ensures forall i :: 0 <= i < |r| ==> '0' <= r[i] <= '9'
    ensures n < 10 <==> |r| == 1
    ensures DecimalValue(r) == n
    ensures r[0] != '0' || n == 0
  {
    if n < 10 then [DigitChar(n)]
    else
      var high := NatToString(n / 10);
      var r := high + [DigitChar(n % 10)];
      assert r[..|r| - 1] == high;
      r
  }

  /** Different counts are written differently. */
  lemma {:induction false} NatToStringInjective(a: nat, b: nat)
    ensures NatToString(a) == NatToString(b) <==> a == b
  {
    if NatToString(a) == NatToString(b) && a >= 10 && b >= 10 {
      var ra, rb := NatToString(a / 10), NatToString(b / 10);
      assert NatToString(a) == ra + [DigitChar(a % 10)];
      assert NatToString(b) == rb + [DigitChar(b % 10)];
      assert |ra| == |rb|;
      assert ra == NatToString(a)[..|ra|] == NatToString(b)[..|rb|] == rb;
      assert DigitChar(a % 10) == NatToString(a)[|ra|] == NatToString(b)[|rb|] == DigitChar(b % 10);
      NatToStringInjective(a / 10, b / 10);
    }
  }
}

=== FILE: controller.dfy ===
/**
  The poll / cancel / finish session registry of
  DeviceBridge/Controllers/FingerprintController.cs.

  The static dictionaries become one `Registry` value and every request or
  worker action is one atomic step over it. The worker thread queued by
  EnrollStart contributes three kinds of step: progress callbacks while
  TryEnroll runs, the single outcome write after it returns, and its
  finally block (release the device lock, drop the cancel token).
 */
module Controller {
  import opened Common
  import Enroll

  /** The inactivity window the worker passes to TryEnroll. */
  const EnrollTimeoutMs: int := 30000

  /** One entry of the progress dictionary. */
  datatype ProgressState = ProgressState(
    progress: int,
    phase: Phase,
    message: string,
    scansLeft: Option<int>,
    template: Option<Bytes>,
    updated: int)

  /** Where the worker of a session is: inside TryEnroll, or past its outcome write. */
  datatype WorkerStage = Enrolling | Reported

  /**
    The controller's shared state. `cancels` maps each live token to whether
    cancellation was requested; `lockFree` is the capacity-1 semaphore's
    count; `blocked` holds requests parked in the semaphore's Wait;
    `workers` holds queued workers that have not yet run their finally.
   */
  datatype Registry = Registry(
    progress: map<string, ProgressState>,
    cancels: map<string, bool>,
    lockFree: bool,
    blocked: set<string>,
    workers: map<string, WorkerStage>)

  const EmptyRegistry: Registry := Registry(map[], map[], true, {}, map[])

  /** What an HTTP action answers: Ok with a body, or BadRequest with a message. */
  datatype Reply<+T> = Ok(value: T) | BadRequest(message: string)

  /** An id the generator has never produced before (the source draws it from a new GUID). */
  predicate Fresh(reg: Registry, id: string)
  {
    id !in reg.progress && id !in reg.cancels && id !in reg.blocked && id !in reg.workers
  }

  /** Whether the session's token exists and was cancelled. */
  predicate CancelRequested(reg: Registry, id: string)
  {
    id in reg.cancels && reg.cancels[id]
  }

  /**
    Mutual exclusion and the shape of entries: at most one worker, and it
    holds the lock; every worker and parked request has a token; an
    enrolling worker and a parked request have an entry without a template;
    an entry carries a template only when it is the finished one.
   */
  ghost predicate Inv(reg: Registry)
  {
    && |reg.workers| <= 1
    && (reg.lockFree <==> reg.workers == map[])
    && reg.blocked !! reg.workers.Keys
    && (forall id :: id in reg.workers ==> id in reg.cancels)
    && (forall id :: id in reg.blocked ==> id in reg.cancels && id in reg.progress)
    && (forall id :: id in reg.workers && reg.workers[id] == Enrolling ==>
          id in reg.progress && reg.progress[id].template == None)
    && (forall id :: id in reg.blocked ==> reg.progress[id].template == None)
    && (forall id :: id in reg.progress && reg.progress[id].template.Some? ==>
          reg.progress[id].phase == Done && reg.progress[id].progress == 100)
  }

  lemma EmptyRegistryInv()
    ensures Inv(EmptyRegistry)
  {
  }

  // ---------------------------------------------------------------------------
  // Snapshots the controller writes

  function InitialState(now: int): (st: ProgressState)
    ensures st.progress == 0 && st.phase == Waiting && st.scansLeft == None && st.template == None
  {
    ProgressState(0, Waiting, "Initializing...", None, None, now)
  }

  function CancelledState(now: int): (st: ProgressState)
    ensures st.progress == 0 && st.phase == Cancelled && st.template == None
  {
    ProgressState(0, Cancelled, "Enrollment cancelled", None, None, now)
  }

  /** How TryEnroll came back to the worker: a value, or an exception with its message. */
  datatype WorkerResult = Returned(ok: bool, templateBytes: Option<Bytes>) | Raised(message: string)

  /** The worker's view of a finished run of the capture session. */
  function FromRun(outcome: Enroll.Outcome, exceptionMessage: string): (w: WorkerResult)
    requires outcome != Enroll.StillPumping
    ensures w.Returned? && w.ok ==> w.templateBytes.Some? && outcome == Enroll.Enrolled(w.templateBytes.value)
    ensures outcome.Enrolled? ==> w == Returned(true, Some(outcome.bytes))
    ensures outcome in {Enroll.StartThrew, Enroll.SerializeThrew} ==> w.Raised?
  {
    match outcome
    case Enrolled(bytes) => Returned(true, Some(bytes))
    case StartThrew => Raised(exceptionMessage)
    case SerializeThrew => Raised(exceptionMessage)
    case _ => Returned(false, None)
  }

  /**
    The worker's call on a newly constructed capture session: TryEnroll with
    the controller's 30-second window and the session's token. A run that
    ends cancelled saw the script's cancel flag set on some pass, and every
    finished run has stopped capturing.
   */
  function WorkerRun(now: int, startSucceeds: bool, ticks: seq<Enroll.Tick>): (r: Enroll.Run)
    ensures (forall i :: 0 <= i < |ticks| ==> !ticks[i].cancelRequested) ==> r.outcome != Enroll.CancelledByToken
    ensures r.outcome == Enroll.StartThrew <==> !startSucceeds
    ensures r.outcome != Enroll.StillPumping ==> !r.state.capturing
    ensures startSucceeds && |ticks| > 0 && ticks[0].clock - now >= 30000 ==> r.outcome == Enroll.TimedOut
    ensures startSucceeds && (forall i :: 0 <= i < |ticks| ==> Enroll.Silent(ticks[i])) ==>
      && r.emitted == []
      && (r.outcome == Enroll.TimedOut <==> exists i :: 0 <= i < |ticks| && ticks[i].clock - now >= 30000)
  {
    var service := Enroll.Construct(now);
    Enroll.TryEnrollNeverLeavesCapturing(service, now, startSucceeds, ticks, EnrollTimeoutMs);
    Enroll.TryEnrollWindow(service, now, startSucceeds, ticks, EnrollTimeoutMs);
    if startSucceeds && forall i :: 0 <= i < |ticks| ==> !ticks[i].cancelRequested then
      Enroll.PumpWithoutTokenNeverCancels(Enroll.ResetForEnroll(service, now).(capturing := true), ticks, EnrollTimeoutMs);
      Enroll.TryEnroll(service, now, startSucceeds, ticks, EnrollTimeoutMs)
    else
      Enroll.TryEnroll(service, now, startSucceeds, ticks, EnrollTimeoutMs)
  }

  /**
    The worker's outcome write: a returned template wins, even over a pending
    cancel; otherwise cancelled if the token was cancelled, else failed; an
    exception is failed with its message. Every write replaces the whole entry.
   */
  function ReportedState(cancelRequested: bool, result: WorkerResult, now: int): (st: ProgressState)
    ensures (st.phase == Done) <==> (result.Returned? && result.ok && result.templateBytes.Some?)
    ensures st.phase == Done ==> st.progress == 100 && st.scansLeft == Some(0) && st.template == result.templateBytes
    ensures st.phase != Done ==> st.progress == 0 && st.template == None && st.scansLeft == None
    ensures st.phase == Cancelled <==> (result.Returned? && !(result.ok && result.templateBytes.Some?) && cancelRequested)
    ensures st.phase in {Done, Cancelled, Phase.Failed}
    ensures result.Raised? ==> st.phase == Phase.Failed && st.message == "Enrollment error: " + result.message
  {
    match result
    case Returned(ok, templateBytes) =>
      if ok && templateBytes.Some? then
        ProgressState(100, Done, "Enrollment complete", Some(0), templateBytes, now)
      else if cancelRequested then
        CancelledState(now)
      else
        ProgressState(0, Phase.Failed, "Enrollment failed or timed out", None, None, now)
    case Raised(message) =>
      ProgressState(0, Phase.Failed, "Enrollment error: " + message, None, None, now)
  }

  // ---------------------------------------------------------------------------
  // EnrollStart

  datatype StartReply = Started(sessionId: string) | StartFailed(message: string) | StillWaiting

  datatype StartResult = StartResult(reg: Registry, reply: StartReply)

  /** Past the semaphore: queue the worker, or on a queueing exception release and answer BadRequest. */
  function AcquireAndQueue(reg: Registry, id: string, queueError: Option<string>): (r: StartResult)
    requires reg.lockFree
    ensures r.reg.progress == reg.progress && r.reg.cancels == reg.cancels
    ensures r.reg.blocked == reg.blocked - {id}
    ensures queueError == None ==>
      r.reply == Started(id) && !r.reg.lockFree && r.reg.workers == reg.workers[id := Enrolling]
    ensures queueError.Some? ==>
      r.reply == StartFailed(queueError.value) && r.reg.lockFree && r.reg.workers == reg.workers
  {
    match queueError
    case None =>
      StartResult(reg.(lockFree := false, blocked := reg.blocked - {id}, workers := reg.workers[id := Enrolling]),
                  Started(id))
    case Some(message) =>
      StartResult(reg.(blocked := reg.blocked - {id}), StartFailed(message))
  }

  /**
    EnrollStart: publish the initial snapshot and a live token under the new
    id, then take the device lock (parking if it is held) and queue the worker.
   */
  function EnrollStart(reg: Registry, id: string, now: int, queueError: Option<string>): (r: StartResult)
    requires Fresh(reg, id)
    ensures id in r.reg.progress && r.reg.progress[id] == InitialState(now)
    ensures id in r.reg.cancels && !r.reg.cancels[id]
    ensures forall k :: k in reg.progress ==> k in r.reg.progress && r.reg.progress[k] == reg.progress[k]
    ensures reg.lockFree ==> r.reply != StillWaiting
    ensures !reg.lockFree ==> r.reply == StillWaiting && id in r.reg.blocked && r.reg.workers == reg.workers
    ensures r.reply.Started? ==> r.reply.sessionId == id && id in r.reg.workers
  {
    var published := reg.(progress := reg.progress[id := InitialState(now)], cancels := reg.cancels[id := false]);
    if published.lockFree then AcquireAndQueue(published, id, queueError)
    else StartResult(published.(blocked := published.blocked + {id}), StillWaiting)
  }

  /** A parked EnrollStart whose Wait returns once the lock is free. */
  function ResumeStart(reg: Registry, id: string, queueError: Option<string>): (r: StartResult)
    requires id in reg.blocked && reg.lockFree
    ensures id !in r.reg.blocked
    ensures r.reply == Started(id) || (queueError.Some? && r.reply == StartFailed(queueError.value))
  {
    AcquireAndQueue(reg, id, queueError)
  }

  // ---------------------------------------------------------------------------
  // Worker steps

  /** The OnSampleProcessed handler: overwrite everything but the template, or create the entry. */
  function WorkerProgress(reg: Registry, id: string, snap: Snapshot, now: int): (r: Registry)
    ensures id in r.progress
    ensures var st := r.progress[id];
      st.progress == snap.progress && st.phase == snap.phase && st.message == snap.message &&
      st.scansLeft == snap.scansLeft && st.updated == now
    ensures r.progress[id].template == (if id in reg.progress then reg.progress[id].template else None)
    ensures forall k :: k in reg.progress && k != id ==> k in r.progress && r.progress[k] == reg.progress[k]
    ensures r.progress.Keys == reg.progress.Keys + {id}
    ensures r.(progress := reg.progress) == reg
  {
    var st := if id in reg.progress then reg.progress[id] else ProgressState(0, Waiting, "", None, None, now);
    reg.(progress := reg.progress[id := st.(progress := snap.progress, phase := snap.phase, message := snap.message,
                                            scansLeft := snap.scansLeft, updated := now)])
  }

  /** The outcome write after TryEnroll returns or throws. */
  function WorkerReport(reg: Registry, id: string, result: WorkerResult, now: int): (r: Registry)
    requires id in reg.workers && reg.workers[id] == Enrolling
    ensures r.progress == reg.progress[id := ReportedState(CancelRequested(reg, id), result, now)]
    ensures r.workers == reg.workers[id := Reported]
    ensures r.cancels == reg.cancels && r.lockFree == reg.lockFree && r.blocked == reg.blocked
  {
    reg.(progress := reg.progress[id := ReportedState(CancelRequested(reg, id), result, now)],
         workers := reg.workers[id := Reported])
  }

  /** SemaphoreSlim.Release on a capacity-1 semaphore; a surplus release throws and is swallowed. */
  function Release(lockFree: bool): (free: bool)
    ensures free
  {
    true
  }

  /** The worker's finally: release the lock, then drop the token. The progress entry stays. */
  function WorkerExit(reg: Registry, id: string): (r: Registry)
    requires id in reg.workers
    ensures r.lockFree
    ensures r.progress == reg.progress
    ensures id !in r.cancels && id !in r.workers
    ensures r.cancels == reg.cancels - {id} && r.workers == reg.workers - {id} && r.blocked == reg.blocked
  {
    reg.(lockFree := Release(reg.lockFree), cancels := reg.cancels - {id}, workers := reg.workers - {id})
  }

  // ---------------------------------------------------------------------------
  // Requests from pollers

  /** The JSON body of EnrollProgress; the unknown-id body has no `cancelled` field. */
  datatype ProgressView = ProgressView(
    progress: int,
    phase: Phase,
    message: string,
    scansLeft: Option<int>,
    done: bool,
    failed: bool,
    cancelled: Option<bool>)

  /** EnrollProgress: read-only; blank ids are refused, unknown ids get a synthetic waiting view. */
  function EnrollProgress(reg: Registry, id: string): (r: Reply<ProgressView>)
    ensures r.BadRequest? <==> IsBlank(id)
    ensures !IsBlank(id) && id in reg.progress ==>
      var st := reg.progress[id];
      && r.value.progress == st.progress && r.value.phase == st.phase && r.value.message == st.message
      && r.value.scansLeft == st.scansLeft
      && (r.value.done <==> st.phase == Done)
      && (r.value.failed <==> st.phase == Phase.Failed)
      && r.value.cancelled == Some(st.phase == Cancelled)
    ensures !IsBlank(id) && id !in reg.progress ==>
      r.value == ProgressView(0, Waiting, "No updates yet", None, false, false, None)
  {
    if IsBlank(id) then BadRequest("sessionId required")
    else if id in reg.progress then
      var st := reg.progress[id];
      Ok(ProgressView(st.progress, st.phase, st.message, st.scansLeft,
                      st.phase == Done, st.phase == Phase.Failed, Some(st.phase == Cancelled)))
    else
      Ok(ProgressView(0, Waiting, "No updates yet", None, false, false, None))
  }

  datatype CancelResult = CancelResult(reg: Registry, reply: Reply<bool>)

  /** EnrollCancel: while the token is live, cancel it and publish a cancelled entry; otherwise change nothing. */
  function EnrollCancel(reg: Registry, id: string, now: int): (r: CancelResult)
    ensures IsBlank(id) ==> r == CancelResult(reg, BadRequest("sessionId required"))
    ensures !IsBlank(id) ==> r.reply == Ok(id in reg.cancels)
    ensures !IsBlank(id) && id in reg.cancels ==>
      && r.reg.progress == reg.progress[id := CancelledState(now)]
      && r.reg.cancels == reg.cancels[id := true]
      && r.reg.lockFree == reg.lockFree && r.reg.blocked == reg.blocked && r.reg.workers == reg.workers
    ensures id !in reg.cancels ==> r.reg == reg
  {
    if IsBlank(id) then CancelResult(reg, BadRequest("sessionId required"))
    else if id in reg.cancels then
      CancelResult(reg.(progress := reg.progress[id := CancelledState(now)], cancels := reg.cancels[id := true]),
                   Ok(true))
    else CancelResult(reg, Ok(false))
  }

  datatype FinishResult = FinishResult(reg: Registry, reply: Reply<Bytes>)

  /**
    EnrollFinish: hand out the template and forget the entry; an entry
    without a template stays. The HTTP layer sends the bytes in Base64.
   */
  function EnrollFinish(reg: Registry, id: string): (r: FinishResult)
    ensures r.reg.cancels == reg.cancels && r.reg.lockFree == reg.lockFree
    ensures r.reg.blocked == reg.blocked && r.reg.workers == reg.workers
    ensures r.reply.Ok? <==> !IsBlank(id) && id in reg.progress && reg.progress[id].template.Some?
    ensures r.reply.Ok? ==> r.reply.value == reg.progress[id].template.value && r.reg.progress == reg.progress - {id}
    ensures r.reply.BadRequest? ==> r.reg == reg
    ensures !IsBlank(id) && id in reg.progress && reg.progress[id].template == None ==>
      r.reply == BadRequest("Enrollment not complete")
    ensures !IsBlank(id) && id !in reg.progress ==> r.reply == BadRequest("Unknown sessionId")
  {
    if IsBlank(id) then FinishResult(reg, BadRequest("sessionId required"))
    else if id in reg.progress then
      var st := reg.progress[id];
      match st.template
      case None => FinishResult(reg, BadRequest("Enrollment not complete"))
      case Some(bytes) => FinishResult(reg.(progress := reg.progress - {id}), Ok(bytes))
    else FinishResult(reg, BadRequest("Unknown sessionId"))
  }

  // ---------------------------------------------------------------------------
  // All steps together

  datatype Action =
    | Start(id: string, now: int, queueError: Option<string>)
    | Resume(id: string, queueError: Option<string>)
    | Progress(id: string, snap: Snapshot, now: int)
    | Report(id: string, result: WorkerResult, now: int)
    | Exit(id: string)
    | Poll(id: string)
    | Cancel(id: string, now: int)
    | Finish(id: string)

  /** When each step can happen: fresh ids, a free lock for a parked Wait, a live worker for its own steps. */
  predicate Enabled(reg: Registry, a: Action)
  {
    match a
    case Start(id, _, _) => Fresh(reg, id)
    case Resume(id, _) => id in reg.blocked && reg.lockFree
    case Progress(id, _, _) => id in reg.workers && reg.workers[id] == Enrolling
    case Report(id, _, _) => id in reg.workers && reg.workers[id] == Enrolling
    case Exit(id) => id in reg.workers
    case Poll(_) => true
    case Cancel(_, _) => true
    case Finish(_) => true
  }

  function Next(reg: Registry, a: Action): Registry
    requires Enabled(reg, a)
  {
    match a
    case Start(id, now, queueError) => EnrollStart(reg, id, now, queueError).reg
    case Resume(id, queueError) => ResumeStart(reg, id, queueError).reg
    case Progress(id, snap, now) => WorkerProgress(reg, id, snap, now)
    case Report(id, result, now) => WorkerReport(reg, id, result, now)
    case Exit(id) => WorkerExit(reg, id)
    case Poll(_) => reg
    case Cancel(id, now) => EnrollCancel(reg, id, now).reg
    case Finish(id) => EnrollFinish(reg, id).reg
  }

  /** A worker map with at most one entry that contains id is exactly {id}. */
  lemma SingleWorker(workers: map<string, WorkerStage>, id: string)
    requires |workers| <= 1 && id in workers
    ensures workers.Keys == {id}
  {
    var rest := workers.Keys - {id};
    assert workers.Keys == rest + {id};
    assert |workers.Keys| == |rest| + 1;
    assert rest == {};
  }

  lemma StartPreservesInv(reg: Registry, id: string, now: int, queueError: Option<string>)
    requires Inv(reg) && Fresh(reg, id)
    ensures Inv(EnrollStart(reg, id, now, queueError).reg)
  {
    var r := EnrollStart(reg, id, now, queueError).reg;
    if reg.lockFree && queueError == None {
      assert reg.workers == map[];
      assert r.workers == map[id := Enrolling];
      assert r.workers.Keys == {id};
    }
  }

  lemma ResumePreservesInv(reg: Registry, id: string, queueError: Option<string>)
    requires Inv(reg) && id in reg.blocked && reg.lockFree
    ensures Inv(ResumeStart(reg, id, queueError).reg)
  {
    var r := ResumeStart(reg, id, queueError).reg;
    assert reg.workers == map[];
    if queueError == None {
      assert r.workers == map[id := Enrolling];
      assert r.workers.Keys == {id};
    }
  }

  lemma ReportPreservesInv(reg: Registry, id: string, result: WorkerResult, now: int)
    requires Inv(reg) && id in reg.workers && reg.workers[id] == Enrolling
    ensures Inv(WorkerReport(reg, id, result, now))
  {
    var r := WorkerReport(reg, id, result, now);
    assert r.workers.Keys == reg.workers.Keys;
    SingleWorker(reg.workers, id);
  }

  lemma ExitPreservesInv(reg: Registry, id: string)
    requires Inv(reg) && id in reg.workers
    ensures Inv(WorkerExit(reg, id))
  {
    SingleWorker(reg.workers, id);
    assert WorkerExit(reg, id).workers == map[];
  }

  lemma ProgressPreservesInv(reg: Registry, id: string, snap: Snapshot, now: int)
    requires Inv(reg) && id in reg.workers && reg.workers[id] == Enrolling
    ensures Inv(WorkerProgress(reg, id, snap, now))
  {
    var r := WorkerProgress(reg, id, snap, now);
    forall k | k in r.blocked
      ensures k in r.cancels && k in r.progress && r.progress[k].template == None
    {
      assert k in reg.progress;
    }
  }

  /** Every step keeps the invariant: in particular at most one enrollment ever holds the device lock. */
  lemma NextPreservesInv(reg: Registry, a: Action)
    requires Inv(reg) && Enabled(reg, a)
    ensures Inv(Next(reg, a))
  {
    match a {
      case Start(id, now, queueError) => StartPreservesInv(reg, id, now, queueError);
      case Resume(id, queueError) => ResumePreservesInv(reg, id, queueError);
      case Progress(id, snap, now) => ProgressPreservesInv(reg, id, snap, now);
      case Report(id, result, now) => ReportPreservesInv(reg, id, result, now);
      case Exit(id) => ExitPreservesInv(reg, id);
      case Poll(_) =>
      case Cancel(id, now) =>
      case Finish(id) =>
    }
  }

  /** Entries disappear only through a successful finish, and then exactly that entry. */
  lemma OnlyFinishRemoves(reg: Registry, a: Action)
    requires Enabled(reg, a)
    ensures !(a.Finish? && EnrollFinish(reg, a.id).reply.Ok?) ==> reg.progress.Keys <= Next(reg, a).progress.Keys
    ensures a.Finish? && EnrollFinish(reg, a.id).reply.Ok? ==> Next(reg, a).progress.Keys == reg.progress.Keys - {a.id}
  {
  }

  /** The template is handed out at most once: a second finish of the same id finds nothing. */
  lemma FinishAtMostOnce(reg: Registry, id: string)
    requires EnrollFinish(reg, id).reply.Ok?
    ensures EnrollFinish(EnrollFinish(reg, id).reg, id).reply == BadRequest("Unknown sessionId")
  {
  }

  /** After the worker's finally dropped the token, cancel answers false and changes nothing. */
  lemma CancelAfterWorkerExit(reg: Registry, id: string, now: int)
    requires id in reg.workers && !IsBlank(id)
    ensures var exited := WorkerExit(reg, id);
      EnrollCancel(exited, id, now) == CancelResult(exited, Ok(false))
  {
  }

  /**
    While the token is live, cancel answers true every time: a second cancel
    is not a no-op but rewrites the same cancelled entry.
   */
  lemma CancelRepeatsWhileLive(reg: Registry, id: string, now: int, later: int)
    requires id in reg.cancels && !IsBlank(id)
    ensures var first := EnrollCancel(reg, id, now);
      first.reply == Ok(true) && EnrollCancel(first.reg, id, later).reply == Ok(true)
  {
  }

  /** A worker that returns a template publishes done even when cancel was already requested. */
  lemma SuccessWinsOverPendingCancel(reg: Registry, id: string, bytes: Bytes, now: int)
    requires id in reg.workers && reg.workers[id] == Enrolling && CancelRequested(reg, id)
    ensures var st := WorkerReport(reg, id, Returned(true, Some(bytes)), now).progress[id];
      st.phase == Done && st.template == Some(bytes) && st.progress == 100
  {
  }

  /**
    The full happy path: start on a free device, the run succeeds, the
    worker exits, and the client finishes once and gets the bytes.
   */
  lemma HappyPath(reg: Registry, id: string, bytes: Bytes, t0: int, t1: int)
    requires Inv(reg) && Fresh(reg, id) && reg.lockFree && !IsBlank(id)
    ensures var started := EnrollStart(reg, id, t0, None);
      var reported := WorkerReport(started.reg, id, Returned(true, Some(bytes)), t1);
      var exited := WorkerExit(reported, id);
      var finished := EnrollFinish(exited, id);
      && started.reply == Started(id)
      && EnrollProgress(exited, id).value.done
      && finished.reply == Ok(bytes)
      && id !in finished.reg.progress
      && finished.reg.lockFree
  {
  }

  /**
    How each way a run ends reaches the poller: the bytes as done, a
    cancelled token as cancelled, a timeout as failed, an exception as
    failed with its message.
   */
  lemma RunOutcomeReported(outcome: Enroll.Outcome, exceptionMessage: string, cancelRequested: bool, now: int)
    requires outcome != Enroll.StillPumping
    ensures var st := ReportedState(cancelRequested, FromRun(outcome, exceptionMessage), now);
      && (outcome.Enrolled? ==> st.phase == Done && st.template == Some(outcome.bytes))
      && (outcome == Enroll.CancelledByToken && cancelRequested ==> st.phase == Cancelled)
      && (outcome == Enroll.TimedOut && !cancelRequested ==>
            st.phase == Phase.Failed && st.message == "Enrollment failed or timed out")
      && (outcome in {Enroll.StartThrew, Enroll.SerializeThrew} ==>
            st.phase == Phase.Failed && st.message == "Enrollment error: " + exceptionMessage)
  {
  }

  /**
    A cancel that arrives after the worker wrote done but before its finally
    dropped the token still answers true and overwrites the entry: the
    template is gone and finish reports the enrollment as not complete.
   */
  lemma CancelAfterReportLosesTemplate(reg: Registry, id: string, bytes: Bytes, t1: int, t2: int)
    requires id in reg.workers && reg.workers[id] == Enrolling && id in reg.cancels && !IsBlank(id)
    ensures var reported := WorkerReport(reg, id, Returned(true, Some(bytes)), t1);
      var cancelled := EnrollCancel(reported, id, t2);
      && reported.progress[id].template == Some(bytes)
      && cancelled.reply == Ok(true)
      && cancelled.reg.progress[id].template == None
      && EnrollFinish(cancelled.reg, id).reply == BadRequest("Enrollment not complete")
  {
  }

  /**
    A finish between the worker's outcome write and its finally removes the
    entry, but the token is still live: a cancel then answers true and
    re-creates the id as a cancelled entry.
   */
  lemma CancelAfterFinishRecreates(reg: Registry, id: string, bytes: Bytes, t1: int, t2: int)
    requires id in reg.workers && reg.workers[id] == Enrolling && id in reg.cancels && !IsBlank(id)
    ensures var reported := WorkerReport(reg, id, Returned(true, Some(bytes)), t1);
      var finished := EnrollFinish(reported, id);
      var cancelled := EnrollCancel(finished.reg, id, t2);
      && finished.reply == Ok(bytes) && id !in finished.reg.progress
      && cancelled.reply == Ok(true)
      && id in cancelled.reg.progress && cancelled.reg.progress[id].phase == Cancelled
  {
  }
}

=== FILE: enroll.dfy ===
/**
  The capture session of DeviceBridge/Services/FingerprintEnroll.cs.

  The vendor capture device and its template builder are not modelled: a
  device callback arrives as a `DeviceEvent`, and a finished sample carries
  the extractor's verdict and the builder's reply to `AddFeatures` with it
  (an oracle). Time is an explicit millisecond clock: each iteration of
  the pump loop of `TryEnroll` is one `Tick` of a script, carrying the clock
  read by the loop test, and each callback carries the clock its handler reads.
 */
module Enroll {
  import opened Common

  /** Scans the progress formula assumes a fresh builder needs. */
  const RequiredScans: nat := 4

  /** Extractor feedback; every verdict other than Good and None is a defect. */
  datatype CaptureFeedback = NoFeedback | Good | Poor(reason: string)

  /** The service keeps a feature set when the extractor says Good or nothing at all. */
  predicate Accepts(f: CaptureFeedback)
  {
    f == Good || f == NoFeedback
  }

  datatype BuilderStatus = Unknown | Insufficient | Failed | Ready

  /** A vendor template; `serialized` is None when serializing it throws. */
  datatype Template = Template(serialized: Option<Bytes>)

  /** The vendor builder as far as the session can observe it. */
  datatype Builder = Builder(fed: seq<Bytes>, needed: UInt32, status: BuilderStatus, template: Option<Template>)

  /**
    A new or cleared builder. That it needs four scans is an assumption
    about the vendor SDK, the same one the source's `(4 - needed)` makes.
   */
  const FreshBuilder: Builder := Builder([], RequiredScans, Unknown, None)

  /** The extractor's answer for one sample. */
  datatype Extraction = Extracted(feedback: CaptureFeedback, features: Bytes) | ExtractorThrew

  /** The builder's reply to AddFeatures (needed count, status, template). */
  datatype Addition = Added(needed: UInt32, status: BuilderStatus, template: Option<Template>) | BuilderThrew

  datatype Sample = Sample(extraction: Extraction, addition: Addition)

  datatype DeviceEvent =
    | Complete(sample: Sample)
    | FingerTouch
    | FingerGone
    | SampleQuality(feedback: CaptureFeedback)
    | ReaderConnect
    | ReaderDisconnect

  /** A device callback and the clock reading taken when its handler runs. */
  datatype Callback = Callback(at: int, event: DeviceEvent)

  /**
    The fields of one FingerprintEnroll instance that its behaviour depends on.
    `signalled` is the auto-reset event, `capturing` whether the device is
    capturing.
   */
  datatype EnrollState = EnrollState(
    builder: Builder,
    fingerDetected: bool,
    result: Option<Template>,
    signalled: bool,
    lastActivity: int,
    capturing: bool)

  /** A freshly constructed session: clean builder, activity stamped now, not capturing. */
  function Construct(now: int): (s: EnrollState)
    ensures s.builder == FreshBuilder && !s.fingerDetected && s.result == None
    ensures !s.signalled && !s.capturing && s.lastActivity == now
  {
    EnrollState(FreshBuilder, false, None, false, now, false)
  }

  /** The state after a callback together with the snapshots it published, in order. */
  datatype Step = Step(state: EnrollState, emitted: seq<Snapshot>)

  const DetectedSnapshot: Snapshot := Snapshot(10, Scanning, "Finger detected, initializing scan...", None)
  const PoorQualitySnapshot: Snapshot := Snapshot(25, Scanning, "Poor quality scan, please try again...", None)
  const ReadySnapshot: Snapshot := Snapshot(85, Processing, "Processing template...", Some(0))
  const RetrySnapshot: Snapshot := Snapshot(0, Waiting, "Enrollment failed. Please try again.", None)
  const ErrorSnapshot: Snapshot := Snapshot(0, Phase.Failed, "Fingerprint processing error occurred.", None)
  const TouchSnapshot: Snapshot := Snapshot(5, Scanning, "Finger detected on scanner...", None)
  const CancelSnapshot: Snapshot := Snapshot(0, Cancelled, "Enrollment cancelled", None)

  /** Whether (4 - needed) * 25 is representable as a C# `int`. */
  predicate ProductFitsInt32(needed: UInt32)
  {
    (needed - RequiredScans) * 25 <= 0x8000_0000
  }

  /**
    Percent reported after an accepted sample: min(100, (4 - (int)needed) * 25).
    The `uint` count is cast to `int`, and the subtraction and product are
    unchecked `int` arithmetic, so both wrap modulo 2^32.
   */
  function SampleProgress(needed: UInt32): (p: int)
    ensures -0x8000_0000 <= p <= 100
    ensures needed <= RequiredScans ==> 0 <= p && p % 25 == 0
    ensures needed <= RequiredScans ==> (p == 100 <==> needed == 0)
    ensures RequiredScans < needed && ProductFitsInt32(needed) ==> p < 0
  {
    var raw := ToInt32((RequiredScans - ToInt32(needed)) * 25);
    if 100 < raw then 100 else raw
  }

  /** The overflow edge: the last count that still reads negative, and the first that wraps to 100. */
  lemma SampleProgressWraps()
    ensures ProductFitsInt32(85_899_349) && SampleProgress(85_899_349) < 0
    ensures !ProductFitsInt32(85_899_350) && SampleProgress(85_899_350) == 100
  {
  }

  /** While the product fits in an `int`, fewer scans still needed never means less progress. */
  lemma SampleProgressAntitone(a: UInt32, b: UInt32)
    requires a <= b && ProductFitsInt32(b)
    ensures SampleProgress(b) <= SampleProgress(a)
  {
  }

  /** The `(int)` cast of a scans-needed count, as the snapshots carry it. */
  function ScansLeft(needed: UInt32): (n: Option<int>)
    ensures n.Some? && (needed < 0x8000_0000 <==> n.value == needed)
    ensures needed >= 0x8000_0000 ==> n.value == needed - UintRange
  {
    Some(ToInt32(needed))
  }

  function SampleSnapshot(needed: UInt32): (snap: Snapshot)
    ensures snap.phase == Scanning && snap.scansLeft == ScansLeft(needed)
    ensures snap.progress == SampleProgress(needed)
  {
    Snapshot(SampleProgress(needed), Scanning,
      if needed > 0 then "Lift and place finger again... (" + NatToString(needed) + " more)" else "Processing...",
      ScansLeft(needed))
  }

  /** A sample whose features the extractor produced and the feedback rule keeps. */
  predicate Accepted(sample: Sample)
  {
    sample.extraction.Extracted? && Accepts(sample.extraction.feedback)
  }

  /** An accepted sample on which the builder reported Failed. */
  predicate FailsBuilder(sample: Sample)
  {
    Accepted(sample) && sample.addition.Added? && sample.addition.status == BuilderStatus.Failed
  }

  /** An accepted sample on which the builder reported Ready. */
  predicate ReadiesBuilder(sample: Sample)
  {
    Accepted(sample) && sample.addition.Added? && sample.addition.status == Ready
  }

  /** The detection notice the first sample after a reset publishes before anything else. */
  function Announcement(s: EnrollState): (a: seq<Snapshot>)
    ensures a == [] <==> s.fingerDetected
    ensures forall i :: 0 <= i < |a| ==> a[i] == DetectedSnapshot
  {
    if s.fingerDetected then [] else [DetectedSnapshot]
  }

  /** A handler's snapshots after the announcement: the notice leads exactly when it was due, and appears nowhere else. */
  function Announced(s: EnrollState, tail: seq<Snapshot>): (e: seq<Snapshot>)
    requires tail != [] && DetectedSnapshot !in tail
    ensures e == Announcement(s) + tail
    ensures |e| > 0
    ensures !s.fingerDetected ==> e[0] == DetectedSnapshot
    ensures s.fingerDetected ==> DetectedSnapshot !in e
  {
    Announcement(s) + tail
  }

  /**
    OnComplete: announce the first sample after a reset, then extract,
    feed the builder and react to its status. Exceptions from the extractor
    or the builder are caught and published as a failed snapshot.
   */
  function OnComplete(s: EnrollState, now: int, sample: Sample): (r: Step)
    // only the first sample since a reset announces detection
    ensures !s.fingerDetected ==> |r.emitted| > 0 && r.emitted[0] == DetectedSnapshot
    ensures s.fingerDetected ==> DetectedSnapshot !in r.emitted
    ensures |r.emitted| > 0
    // detection stays set unless the builder failed
    ensures r.state.fingerDetected <==> !FailsBuilder(sample)
    // a rejected sample changes neither builder nor activity and asks for a retry
    ensures !Accepted(sample) ==>
      && r.state == s.(fingerDetected := true)
      && r.emitted == Announcement(s) + [if sample.extraction.Extracted? then PoorQualitySnapshot else ErrorSnapshot]
    // an accepted sample refreshes activity
    ensures Accepted(sample) ==> r.state.lastActivity == now
    ensures Accepted(sample) && sample.addition.BuilderThrew? ==>
      r.state == s.(fingerDetected := true, lastActivity := now) && r.emitted == Announcement(s) + [ErrorSnapshot]
    // the builder's reply is published, then Ready or Failed is acted on
    ensures FailsBuilder(sample) ==>
      && r.state.builder == FreshBuilder
      && r.emitted == Announcement(s) + [SampleSnapshot(sample.addition.needed), RetrySnapshot]
      && r.state.result == s.result && r.state.signalled == s.signalled && r.state.capturing == s.capturing
    ensures ReadiesBuilder(sample) ==>
      && r.emitted == Announcement(s) + [SampleSnapshot(sample.addition.needed), ReadySnapshot]
      && r.state.result == sample.addition.template
      && r.state.signalled && !r.state.capturing
      && r.state.builder.fed == s.builder.fed + [sample.extraction.features]
    ensures Accepted(sample) && sample.addition.Added? && sample.addition.status !in {Ready, BuilderStatus.Failed} ==>
      && r.state.builder == Builder(s.builder.fed + [sample.extraction.features], sample.addition.needed,
                                    sample.addition.status, sample.addition.template)
      && r.state.result == s.result && r.state.signalled == s.signalled && r.state.capturing == s.capturing
      && r.emitted == Announcement(s) + [SampleSnapshot(sample.addition.needed)]
  {
    var s1 := s.(fingerDetected := true);
    match sample.extraction
    case ExtractorThrew => Step(s1, Announced(s, [ErrorSnapshot]))
    case Extracted(feedback, features) =>
      if !Accepts(feedback) then Step(s1, Announced(s, [PoorQualitySnapshot]))
      else
        var s2 := s1.(lastActivity := now);
        match sample.addition
        case BuilderThrew => Step(s2, Announced(s, [ErrorSnapshot]))
        case Added(needed, status, template) =>
          var fed := Builder(s.builder.fed + [features], needed, status, template);
          var snap := SampleSnapshot(needed);
          if status == Ready then
            Step(s2.(builder := fed, result := template, capturing := false, signalled := true),
                 Announced(s, [snap, ReadySnapshot]))
          else if status == BuilderStatus.Failed then
            Step(s2.(builder := FreshBuilder, fingerDetected := false), Announced(s, [snap, RetrySnapshot]))
          else
            Step(s2.(builder := fed), Announced(s, [snap]))
  }

  /** OnFingerTouch: always counts as activity; prompts only while no finger was detected yet. */
  function OnFingerTouch(s: EnrollState, now: int): (r: Step)
    ensures r.state.lastActivity == now
    ensures r.emitted == [] <==> s.fingerDetected
    ensures forall i :: 0 <= i < |r.emitted| ==> r.emitted[i] == TouchSnapshot
  {
    Step(s.(lastActivity := now), if s.fingerDetected then [] else [TouchSnapshot])
  }

  /** OnFingerGone: asks for the finger back only when one was detected and no template is ready. */
  function OnFingerGone(s: EnrollState): (r: Step)
    ensures r.state == s
    ensures r.emitted != [] <==> s.fingerDetected && s.builder.status != Ready
    ensures forall i :: 0 <= i < |r.emitted| ==>
      r.emitted[i].progress == 0 && r.emitted[i].phase == Waiting && r.emitted[i].scansLeft == ScansLeft(s.builder.needed)
  {
    if s.fingerDetected && s.builder.status != Ready then
      Step(s, [Snapshot(0, Waiting, "Place your finger back on the scanner...", ScansLeft(s.builder.needed))])
    else
      Step(s, [])
  }

  /** OnSampleQuality: Good feedback is activity and is published; anything else is ignored. */
  function OnSampleQuality(s: EnrollState, now: int, f: CaptureFeedback): (r: Step)
    ensures f != Good ==> r == Step(s, [])
    ensures f == Good ==> r.state.lastActivity == now && |r.emitted| == 1 && r.emitted[0].progress == 50
    ensures f == Good ==> r.emitted[0].scansLeft == ScansLeft(s.builder.needed)
  {
    if f == Good then
      Step(s.(lastActivity := now), [Snapshot(50, Scanning, "Good quality detected", ScansLeft(s.builder.needed))])
    else
      Step(s, [])
  }

  /** Events that refresh the inactivity clock. */
  predicate Refreshes(e: DeviceEvent)
  {
    match e
    case FingerTouch => true
    case SampleQuality(f) => f == Good
    case Complete(sample) => Accepted(sample)
    case _ => false
  }

  /** Events after which no finger counts as detected. */
  predicate ResetsDetection(e: DeviceEvent)
  {
    e.Complete? && FailsBuilder(e.sample)
  }

  /** Dispatch of one device callback. */
  function Deliver(s: EnrollState, now: int, e: DeviceEvent): (r: Step)
    ensures r.state.lastActivity == if Refreshes(e) then now else s.lastActivity
    ensures r.state.fingerDetected ==
      if ResetsDetection(e) then false else if e.Complete? then true else s.fingerDetected
    ensures !e.Complete? ==> r.state.builder == s.builder && r.state.result == s.result
  {
    match e
    case Complete(sample) => OnComplete(s, now, sample)
    case FingerTouch => OnFingerTouch(s, now)
    case FingerGone => OnFingerGone(s)
    case SampleQuality(f) => OnSampleQuality(s, now, f)
    case ReaderConnect => Step(s, [])
    case ReaderDisconnect => Step(s, [])
  }

  /** All callbacks delivered during one message-pump pass, in order, each at its own clock reading. */
  function DeliverAll(s: EnrollState, callbacks: seq<Callback>): (r: Step)
    decreases |callbacks|
  {
    if callbacks == [] then Step(s, [])
    else
      var first := Deliver(s, callbacks[0].at, callbacks[0].event);
      var rest := DeliverAll(first.state, callbacks[1..]);
      Step(rest.state, first.emitted + rest.emitted)
  }

  /** One step of DeliverAll, unfolded. */
  lemma DeliverAllCons(s: EnrollState, callbacks: seq<Callback>)
    requires callbacks != []
    ensures var first := Deliver(s, callbacks[0].at, callbacks[0].event);
      var rest := DeliverAll(first.state, callbacks[1..]);
      DeliverAll(s, callbacks) == Step(rest.state, first.emitted + rest.emitted)
  {
  }

  /** Delivering a + b is delivering a, then b from where a left off. */
  lemma {:induction false} DeliverAllAppend(s: EnrollState, a: seq<Callback>, b: seq<Callback>)
    ensures var left := DeliverAll(s, a);
      var right := DeliverAll(left.state, b);
      DeliverAll(s, a + b) == Step(right.state, left.emitted + right.emitted)
    decreases |a|
  {
    if a == [] {
      assert a + b == b;
    } else {
      var first := Deliver(s, a[0].at, a[0].event);
      var tail := DeliverAll(first.state, a[1..]);
      var right := DeliverAll(tail.state, b);
      DeliverAllAppend(first.state, a[1..], b);
      DeliverAllAppendUnfold(s, a, b);
      DeliverAllCons(s, a);
      var whole := DeliverAll(s, a + b);
      assert whole.state == right.state;
      assert whole.emitted == first.emitted + (tail.emitted + right.emitted);
      AppendAssoc(first.emitted, tail.emitted, right.emitted);
    }
  }

  /** The first callback of a nonempty a + b is a's first callback, and the rest is a's rest, then b. */
  lemma DeliverAllAppendUnfold(s: EnrollState, a: seq<Callback>, b: seq<Callback>)
    requires a != []
    ensures var first := Deliver(s, a[0].at, a[0].event);
      var rest := DeliverAll(first.state, a[1..] + b);
      DeliverAll(s, a + b) == Step(rest.state, first.emitted + rest.emitted)
  {
    AppendHeadTail(a, b);
    DeliverAllCons(s, a + b);
  }

  /** No callback in the list counts as activity. */
  predicate NoActivity(callbacks: seq<Callback>)
  {
    forall i :: 0 <= i < |callbacks| ==> !Refreshes(callbacks[i].event)
  }

  /**
    The inactivity clock after a pump pass is the clock reading of the last
    callback that counted as activity, and is unchanged when none did.
   */
  lemma {:induction false} DeliverAllActivity(s: EnrollState, callbacks: seq<Callback>)
    ensures NoActivity(callbacks) ==> DeliverAll(s, callbacks).state.lastActivity == s.lastActivity
    ensures forall j :: 0 <= j < |callbacks| && Refreshes(callbacks[j].event) && NoActivity(callbacks[j + 1..]) ==>
      DeliverAll(s, callbacks).state.lastActivity == callbacks[j].at
    decreases |callbacks|
  {
    if callbacks != [] {
      var c := callbacks[0];
      var first := Deliver(s, c.at, c.event);
      var rest := callbacks[1..];
      DeliverAllActivity(first.state, rest);
      if NoActivity(callbacks) {
        assert !Refreshes(c.event);
        forall i | 0 <= i < |rest|
          ensures !Refreshes(rest[i].event)
        {
          assert rest[i] == callbacks[i + 1];
        }
      }
      forall j | 0 <= j < |callbacks| && Refreshes(callbacks[j].event) && NoActivity(callbacks[j + 1..])
        ensures DeliverAll(s, callbacks).state.lastActivity == callbacks[j].at
      {
        if j == 0 {
          assert callbacks[1..] == rest;
        } else {
          assert rest[j - 1] == callbacks[j];
          assert rest[j..] == callbacks[j + 1..];
        }
      }
    }
  }

  /** Once a finger is detected it stays detected until a sample makes the builder fail. */
  lemma {:induction false} DetectionPersists(s: EnrollState, callbacks: seq<Callback>)
    requires s.fingerDetected
    requires forall i :: 0 <= i < |callbacks| ==> !ResetsDetection(callbacks[i].event)
    ensures DeliverAll(s, callbacks).state.fingerDetected
    decreases |callbacks|
  {
    if callbacks != [] {
      var first := Deliver(s, callbacks[0].at, callbacks[0].event);
      assert !ResetsDetection(callbacks[0].event);
      forall i | 0 <= i < |callbacks[1..]|
        ensures !ResetsDetection(callbacks[1..][i].event)
      {
        assert callbacks[1..][i] == callbacks[i + 1];
      }
      DetectionPersists(first.state, callbacks[1..]);
    }
  }

  /** A sample callback whose sample makes the builder ready. */
  predicate ReadiesOn(c: Callback)
  {
    c.event.Complete? && ReadiesBuilder(c.event.sample)
  }

  /** Capture keeps running through any batch without a Ready sample: only Ready stops it from a callback. */
  lemma {:induction false} CaptureStopsOnlyOnReady(s: EnrollState, callbacks: seq<Callback>)
    requires s.capturing
    requires forall i :: 0 <= i < |callbacks| ==> !ReadiesOn(callbacks[i])
    ensures DeliverAll(s, callbacks).state.capturing
    decreases |callbacks|
  {
    if callbacks != [] {
      var first := Deliver(s, callbacks[0].at, callbacks[0].event);
      assert first.state.capturing;
      forall i | 0 <= i < |callbacks[1..]|
        ensures !ReadiesOn(callbacks[1..][i])
      {
        assert callbacks[1..][i] == callbacks[i + 1];
      }
      CaptureStopsOnlyOnReady(first.state, callbacks[1..]);
    }
  }

  // ---------------------------------------------------------------------------
  // The TryEnroll pump loop

  /** One iteration of the pump loop: the clock read at the loop test, the token, the callbacks pumped. */
  datatype Tick = Tick(clock: int, cancelRequested: bool, callbacks: seq<Callback>)

  /**
    How TryEnroll ended. `StartThrew` and `SerializeThrew` are exceptions that
    leave TryEnroll; `StillPumping` means the script ended while the loop was
    still waiting.
   */
  datatype Outcome =
    | Enrolled(bytes: Bytes)
    | CancelledByToken
    | TimedOut
    | SerializeThrew
    | StartThrew
    | StillPumping

  datatype TickResult =
    | Continue(state: EnrollState, emitted: seq<Snapshot>)
    | Exit(outcome: Outcome, state: EnrollState, emitted: seq<Snapshot>)

  /** A whole call: outcome, final state, every published snapshot, whether the finally block's Stop ran. */
  datatype Run = Run(outcome: Outcome, state: EnrollState, emitted: seq<Snapshot>, stopCalled: bool)

  /** The loop test: less than timeoutMs since the last activity. */
  predicate InWindow(s: EnrollState, clock: int, timeoutMs: int)
  {
    clock - s.lastActivity < timeoutMs
  }

  /** Stop(): stops capture; its own exceptions are swallowed. */
  function Stop(s: EnrollState): (s': EnrollState)
    ensures !s'.capturing && s'.result == s.result
  {
    s.(capturing := false)
  }

  /**
    One loop iteration: the inactivity test, then the cancellation test, then
    one pump pass, then a non-blocking take of the ready signal.
   */
  function PumpTick(s: EnrollState, t: Tick, timeoutMs: int): (r: TickResult)
    ensures !InWindow(s, t.clock, timeoutMs) ==> r == Exit(TimedOut, s, [])
    ensures InWindow(s, t.clock, timeoutMs) && t.cancelRequested ==> r == Exit(CancelledByToken, s, [CancelSnapshot])
    ensures InWindow(s, t.clock, timeoutMs) && !t.cancelRequested ==>
      && r.emitted == DeliverAll(s, t.callbacks).emitted
      && !r.state.signalled
    ensures InWindow(s, t.clock, timeoutMs) && !t.cancelRequested ==>
      var d := DeliverAll(s, t.callbacks);
      var taken := d.state.(signalled := false);
      && (d.state.signalled && d.state.result == Some(Template(None)) ==> r == Exit(SerializeThrew, taken, d.emitted))
      && (d.state.signalled && d.state.result.Some? && d.state.result.value.serialized.Some? ==>
            r == Exit(Enrolled(d.state.result.value.serialized.value), taken, d.emitted))
      && (!(d.state.signalled && d.state.result.Some?) ==> r == Continue(taken, d.emitted))
    ensures r.Exit? ==> r.outcome.Enrolled? || r.outcome in {TimedOut, CancelledByToken, SerializeThrew}
    ensures r.Exit? && r.outcome.Enrolled? ==>
      && InWindow(s, t.clock, timeoutMs) && !t.cancelRequested
      && DeliverAll(s, t.callbacks).state.signalled
      && r.state.result.Some? && r.state.result.value.serialized == Some(r.outcome.bytes)
  {
    if !InWindow(s, t.clock, timeoutMs) then Exit(TimedOut, s, [])
    else if t.cancelRequested then Exit(CancelledByToken, s, [CancelSnapshot])
    else
      var pumped := DeliverAll(s, t.callbacks);
      var s' := pumped.state.(signalled := false);
      if pumped.state.signalled && s'.result.Some? then
        match s'.result.value.serialized
        case Some(bytes) => Exit(Enrolled(bytes), s', pumped.emitted)
        case None => Exit(SerializeThrew, s', pumped.emitted)
      else
        Continue(s', pumped.emitted)
  }

  /** The loop over a script of ticks; every exit from the loop runs the finally block's Stop. */
  function Pump(s: EnrollState, ticks: seq<Tick>, timeoutMs: int): (r: Run)
    decreases |ticks|
  {
    if ticks == [] then Run(StillPumping, s, [], false)
    else
      match PumpTick(s, ticks[0], timeoutMs)
      case Exit(outcome, s', emitted) => Run(outcome, Stop(s'), emitted, true)
      case Continue(s', emitted) =>
        var rest := Pump(s', ticks[1..], timeoutMs);
        rest.(emitted := emitted + rest.emitted)
  }

  /** The state TryEnroll sets up before starting capture. */
  function ResetForEnroll(s: EnrollState, clock: int): (s': EnrollState)
    ensures s'.builder == FreshBuilder && !s'.fingerDetected && s'.result == None && s'.lastActivity == clock
  {
    s.(result := None, fingerDetected := false, builder := FreshBuilder, lastActivity := clock)
  }

  /**
    TryEnroll(timeoutMs, token): reset, Start (outside the try block, so a
    throwing Start skips the finally), then pump until an exit.
   */
  function TryEnroll(s: EnrollState, clock: int, startSucceeds: bool, ticks: seq<Tick>, timeoutMs: int): Run
  {
    var reset := ResetForEnroll(s, clock);
    if !startSucceeds then Run(StartThrew, reset, [], false)
    else Pump(reset.(capturing := true), ticks, timeoutMs)
  }

  /** Stop runs exactly on the exits of the loop, and after it the device is not capturing. */
  lemma {:induction false} PumpStopsOnEveryExit(s: EnrollState, ticks: seq<Tick>, timeoutMs: int)
    ensures Pump(s, ticks, timeoutMs).stopCalled <==> Pump(s, ticks, timeoutMs).outcome != StillPumping
    ensures Pump(s, ticks, timeoutMs).outcome != StartThrew
    ensures Pump(s, ticks, timeoutMs).stopCalled ==> !Pump(s, ticks, timeoutMs).state.capturing
    decreases |ticks|
  {
    if ticks != [] {
      match PumpTick(s, ticks[0], timeoutMs)
      case Exit(_, _, _) =>
      case Continue(s', _) => PumpStopsOnEveryExit(s', ticks[1..], timeoutMs);
    }
  }

  /**
    Every way TryEnroll ends leaves the device not capturing: the loop exits
    (success, cancel, timeout, a throwing serializer) run Stop, and a
    throwing Start never started capture.
   */
  lemma TryEnrollNeverLeavesCapturing(s: EnrollState, clock: int, startSucceeds: bool, ticks: seq<Tick>, timeoutMs: int)
    requires !s.capturing
    ensures var r := TryEnroll(s, clock, startSucceeds, ticks, timeoutMs);
      && (r.outcome != StillPumping ==> !r.state.capturing)
      && (r.outcome == StartThrew <==> !startSucceeds)
      && (r.stopCalled <==> r.outcome !in {StillPumping, StartThrew})
  {
    if startSucceeds {
      PumpStopsOnEveryExit(ResetForEnroll(s, clock).(capturing := true), ticks, timeoutMs);
    }
  }

  /** A cancelled run publishes the cancelled snapshot last; a successful one returns the ready template's bytes. */
  lemma {:induction false} PumpExitShapes(s: EnrollState, ticks: seq<Tick>, timeoutMs: int)
    ensures var r := Pump(s, ticks, timeoutMs);
      && (r.outcome == CancelledByToken ==> |r.emitted| > 0 && Last(r.emitted) == CancelSnapshot)
      && (r.outcome.Enrolled? ==> r.state.result.Some? && r.state.result.value.serialized == Some(r.outcome.bytes))
    decreases |ticks|
  {
    if ticks != [] {
      match PumpTick(s, ticks[0], timeoutMs)
      case Exit(_, _, _) =>
      case Continue(s', em) =>
        PumpExitShapes(s', ticks[1..], timeoutMs);
        var rest := Pump(s', ticks[1..], timeoutMs);
        if rest.outcome == CancelledByToken {
          assert Last(em + rest.emitted) == Last(rest.emitted);
        }
    }
  }

  /**
    A pump pass whose last callback is a Ready sample with a serializable
    template ends TryEnroll successfully with those bytes, unless the token
    was already cancelled or the window had already closed at the loop test.
   */
  lemma ReadySampleEnrolls(s: EnrollState, t: Tick, timeoutMs: int, before: seq<Callback>, at: int, sample: Sample,
                           bytes: Bytes)
    requires InWindow(s, t.clock, timeoutMs) && !t.cancelRequested
    requires t.callbacks == before + [Callback(at, Complete(sample))]
    requires ReadiesBuilder(sample) && sample.addition.template == Some(Template(Some(bytes)))
    ensures PumpTick(s, t, timeoutMs).Exit? && PumpTick(s, t, timeoutMs).outcome == Enrolled(bytes)
  {
    var last := [Callback(at, Complete(sample))];
    DeliverAllAppend(s, before, last);
    var mid := DeliverAll(s, before).state;
    assert last[1..] == [];
    assert DeliverAll(mid, last).state == OnComplete(mid, at, sample).state;
  }

  /** One loop pass of the reference, unfolded. */
  lemma PumpStep(s: EnrollState, ticks: seq<Tick>, timeoutMs: int)
    requires ticks != []
    ensures var t := PumpTick(s, ticks[0], timeoutMs);
      && (t.Exit? ==> Pump(s, ticks, timeoutMs) == Run(t.outcome, Stop(t.state), t.emitted, true))
      && (t.Continue? ==>
            var rest := Pump(t.state, ticks[1..], timeoutMs);
            Pump(s, ticks, timeoutMs) == rest.(emitted := t.emitted + rest.emitted))
  {
  }

  /**
    The loop of TryEnroll written as the source writes it, with early
    returns; it computes exactly the reference `TryEnroll`.
   */
  method RunTryEnroll(s: EnrollState, clock: int, startSucceeds: bool, ticks: seq<Tick>, timeoutMs: int)
    returns (ok: bool, templateBytes: Option<Bytes>, run: Run)
    ensures run == TryEnroll(s, clock, startSucceeds, ticks, timeoutMs)
    ensures ok <==> run.outcome.Enrolled?
    ensures ok ==> templateBytes == Some(run.outcome.bytes)
    ensures !ok ==> templateBytes == None
  {
    var cur := ResetForEnroll(s, clock);
    if !startSucceeds {
      return false, None, Run(StartThrew, cur, [], false);
    }
    cur := cur.(capturing := true);
    ghost var start := cur;
    var emitted: seq<Snapshot> := [];
    var i := 0;
    while i < |ticks|
      invariant 0 <= i <= |ticks|
      invariant Pump(start, ticks, timeoutMs) ==
        Pump(cur, ticks[i..], timeoutMs).(emitted := emitted + Pump(cur, ticks[i..], timeoutMs).emitted)
      decreases |ticks| - i
    {
      var t := ticks[i];
      assert ticks[i..][0] == t && ticks[i..][1..] == ticks[i + 1..];
      PumpStep(cur, ticks[i..], timeoutMs);
      if !(t.clock - cur.lastActivity < timeoutMs) {
        assert PumpTick(cur, t, timeoutMs) == Exit(TimedOut, cur, []);
        return false, None, Run(TimedOut, Stop(cur), emitted, true);
      }
      if t.cancelRequested {
        assert PumpTick(cur, t, timeoutMs) == Exit(CancelledByToken, cur, [CancelSnapshot]);
        return false, None, Run(CancelledByToken, Stop(cur), emitted + [CancelSnapshot], true);
      }
      var pumped := DeliverAll(cur, t.callbacks);
      ghost var before := emitted;
      emitted := emitted + pumped.emitted;
      var signalled := pumped.state.signalled;
      ghost var prev := cur;
      cur := pumped.state.(signalled := false);
      if signalled && cur.result.Some? {
        match cur.result.value.serialized {
          case Some(bytes) =>
            assert PumpTick(prev, t, timeoutMs) == Exit(Enrolled(bytes), cur, pumped.emitted);
            return true, Some(bytes), Run(Enrolled(bytes), Stop(cur), emitted, true);
          case None =>
            assert PumpTick(prev, t, timeoutMs) == Exit(SerializeThrew, cur, pumped.emitted);
            return false, None, Run(SerializeThrew, Stop(cur), emitted, true);
        }
      }
      assert PumpTick(prev, t, timeoutMs) == Continue(cur, pumped.emitted);
      assert emitted + Pump(cur, ticks[i + 1..], timeoutMs).emitted
          == before + (pumped.emitted + Pump(cur, ticks[i + 1..], timeoutMs).emitted);
      i := i + 1;
    }
    return false, None, Run(StillPumping, cur, emitted, false);
  }

  // ---------------------------------------------------------------------------
  // Scripts without a token, without activity, and the four-scan enrollment

  /** The overload without a token: the same script with cancellation never requested. */
  function WithoutToken(ticks: seq<Tick>): (r: seq<Tick>)
    ensures |r| == |ticks|
    ensures forall i :: 0 <= i < |r| ==> !r[i].cancelRequested
    ensures forall i :: 0 <= i < |r| ==> r[i].clock == ticks[i].clock && r[i].callbacks == ticks[i].callbacks
  {
    seq(|ticks|, i requires 0 <= i < |ticks| => ticks[i].(cancelRequested := false))
  }

  /** Without cancellation requests the loop never ends as cancelled. */
  lemma {:induction false} PumpWithoutTokenNeverCancels(s: EnrollState, ticks: seq<Tick>, timeoutMs: int)
    requires forall i :: 0 <= i < |ticks| ==> !ticks[i].cancelRequested
    ensures Pump(s, ticks, timeoutMs).outcome != CancelledByToken
    decreases |ticks|
  {
    if ticks != [] {
      match PumpTick(s, ticks[0], timeoutMs)
      case Exit(_, _, _) =>
      case Continue(s', _) =>
        assert forall i :: 0 <= i < |ticks[1..]| ==> ticks[1..][i] == ticks[i + 1];
        PumpWithoutTokenNeverCancels(s', ticks[1..], timeoutMs);
    }
  }

  /** A loop iteration in which nothing happened: no cancellation, no callback. */
  predicate Silent(t: Tick)
  {
    !t.cancelRequested && t.callbacks == []
  }

  /**
    With no callbacks at all the session publishes nothing and times out
    exactly when some loop test sees the window from the last activity closed.
   */
  lemma {:induction false} SilentScriptTimesOut(s: EnrollState, ticks: seq<Tick>, timeoutMs: int)
    requires !(s.signalled && s.result.Some?)
    requires forall i :: 0 <= i < |ticks| ==> Silent(ticks[i])
    ensures Pump(s, ticks, timeoutMs).emitted == []
    ensures Pump(s, ticks, timeoutMs).outcome in {TimedOut, StillPumping}
    ensures Pump(s, ticks, timeoutMs).outcome == TimedOut <==>
      exists i :: 0 <= i < |ticks| && !InWindow(s, ticks[i].clock, timeoutMs)
    decreases |ticks|
  {
    if ticks != [] {
      assert DeliverAll(s, ticks[0].callbacks) == Step(s, []);
      if InWindow(s, ticks[0].clock, timeoutMs) {
        var s' := s.(signalled := false);
        assert PumpTick(s, ticks[0], timeoutMs) == Continue(s', []);
        var rest := ticks[1..];
        assert forall j :: 0 <= j < |rest| ==> rest[j] == ticks[j + 1];
        SilentScriptTimesOut(s', rest, timeoutMs);
        if exists i :: 0 <= i < |ticks| && !InWindow(s, ticks[i].clock, timeoutMs) {
          var i :| 0 <= i < |ticks| && !InWindow(s, ticks[i].clock, timeoutMs);
          assert rest[i - 1] == ticks[i];
        }
        if exists j :: 0 <= j < |rest| && !InWindow(s, rest[j].clock, timeoutMs) {
          var j :| 0 <= j < |rest| && !InWindow(s, rest[j].clock, timeoutMs);
          assert ticks[j + 1] == rest[j];
        }
      }
    }
  }

  /**
    The window TryEnroll is given, measured from its own start: a first loop
    test that finds timeoutMs already gone times out, and a run without
    callbacks or cancellation times out exactly when some loop test comes
    timeoutMs or more after the start.
   */
  lemma TryEnrollWindow(s: EnrollState, clock: int, startSucceeds: bool, ticks: seq<Tick>, timeoutMs: int)
    ensures var r := TryEnroll(s, clock, startSucceeds, ticks, timeoutMs);
      && (startSucceeds && |ticks| > 0 && ticks[0].clock - clock >= timeoutMs ==> r.outcome == TimedOut)
      && (startSucceeds && (forall i :: 0 <= i < |ticks| ==> Silent(ticks[i])) ==>
            && r.emitted == []
            && (r.outcome == TimedOut <==> exists i :: 0 <= i < |ticks| && ticks[i].clock - clock >= timeoutMs))
  {
    var reset := ResetForEnroll(s, clock).(capturing := true);
    if startSucceeds && forall i :: 0 <= i < |ticks| ==> Silent(ticks[i]) {
      SilentScriptTimesOut(reset, ticks, timeoutMs);
    }
  }

  /** A sample the extractor calls Good, with the builder's reply to it. */
  function GoodSample(needed: UInt32, status: BuilderStatus, template: Option<Template>): (sample: Sample)
    ensures Accepted(sample) && sample.addition == Added(needed, status, template)
  {
    Sample(Extracted(Good, []), Added(needed, status, template))
  }

  /** The progress column of a run of snapshots. */
  function Progresses(emitted: seq<Snapshot>): (r: seq<int>)
    ensures |r| == |emitted|
    ensures forall i :: 0 <= i < |r| ==> r[i] == emitted[i].progress
  {
    seq(|emitted|, i requires 0 <= i < |emitted| => emitted[i].progress)
  }
  /** The callbacks of four good scans, one millisecond apart from `at`, the builder counting 3, 2, 1 and then Ready. */
  function FourScans(bytes: Bytes, at: int): (callbacks: seq<Callback>)
    ensures |callbacks| == 4
    ensures forall i :: 0 <= i < 4 ==> callbacks[i].at == at + i && callbacks[i].event.Complete?
  {
    [Callback(at, Complete(GoodSample(3, Insufficient, None))),
     Callback(at + 1, Complete(GoodSample(2, Insufficient, None))),
     Callback(at + 2, Complete(GoodSample(1, Insufficient, None))),
     Callback(at + 3, Complete(GoodSample(0, Ready, Some(Template(Some(bytes))))))]
  }

  /** One good scan the builder still needs more after. */
  lemma GoodScanStep(s: EnrollState, now: int, needed: UInt32)
    ensures var d := Deliver(s, now, Complete(GoodSample(needed, Insufficient, None)));
      && d.emitted == (if s.fingerDetected then [] else [DetectedSnapshot]) + [SampleSnapshot(needed)]
      && d.state.fingerDetected && d.state.signalled == s.signalled && d.state.result == s.result
  {
  }

  /** The good scan that makes the builder ready. */
  lemma ReadyScanStep(s: EnrollState, now: int, bytes: Bytes)
    requires s.fingerDetected
    ensures var d := Deliver(s, now, Complete(GoodSample(0, Ready, Some(Template(Some(bytes))))));
      && d.emitted == [SampleSnapshot(0), ReadySnapshot]
      && d.state.signalled && d.state.result == Some(Template(Some(bytes)))
  {
  }

  /** The four scans delivered in one pass, from a state with no finger detected yet. */
  lemma FourScansDelivered(s: EnrollState, at: int, bytes: Bytes)
    requires !s.fingerDetected
    ensures var all := DeliverAll(s, FourScans(bytes, at));
      && all.emitted == [DetectedSnapshot, SampleSnapshot(3), SampleSnapshot(2), SampleSnapshot(1),
                         SampleSnapshot(0), ReadySnapshot]
      && all.state.signalled && all.state.result == Some(Template(Some(bytes)))
      && all.state.lastActivity == at + 3
  {
    var cs := FourScans(bytes, at);
    var d1 := Deliver(s, at, cs[0].event);
    GoodScanStep(s, at, 3);
    var d2 := Deliver(d1.state, at + 1, cs[1].event);
    GoodScanStep(d1.state, at + 1, 2);
    var d3 := Deliver(d2.state, at + 2, cs[2].event);
    GoodScanStep(d2.state, at + 2, 1);
    var d4 := Deliver(d3.state, at + 3, cs[3].event);
    ReadyScanStep(d3.state, at + 3, bytes);
    assert cs[1..][1..][1..][1..] == [];
    assert DeliverAll(d3.state, cs[1..][1..][1..]) == Step(d4.state, d4.emitted);
    assert DeliverAll(d2.state, cs[1..][1..]) == Step(d4.state, d3.emitted + d4.emitted);
    assert DeliverAll(d1.state, cs[1..]) == Step(d4.state, d2.emitted + d3.emitted + d4.emitted);
  }

  /**
    Four good scans pumped in one pass, after the loop test at one second:
    the caller sees 10, 25, 50, 75, 100 and then 85, TryEnroll returns the
    template's bytes with capture stopped, and the last activity is the
    last scan's time.
   */
  lemma FourGoodScansEnroll(bytes: Bytes, clock: int)
    ensures var r := TryEnroll(Construct(clock), clock, true,
                               [Tick(clock + 1000, false, FourScans(bytes, clock + 1010))], 60000);
      && r.outcome == Enrolled(bytes)
      && Progresses(r.emitted) == [10, 25, 50, 75, 100, 85]
      && r.stopCalled && !r.state.capturing
      && r.state.lastActivity == clock + 1013
  {
    var s0 := ResetForEnroll(Construct(clock), clock).(capturing := true);
    var cs := FourScans(bytes, clock + 1010);
    FourScansDelivered(s0, clock + 1010, bytes);
    var all := DeliverAll(s0, cs);
    assert PumpTick(s0, Tick(clock + 1000, false, cs), 60000) == Exit(Enrolled(bytes), all.state.(signalled := false), all.emitted);
  }
}

=== FILE: enrollment_models.dfy ===
/**
  The request and session records of DeviceBridge/Models/EnrollmentModels.cs,
  with the defaults their property initialisers give them.
 */
module EnrollmentModels {
  import opened Common

  /** The body of a start request. */
  datatype StartEnrollmentRequest = StartEnrollmentRequest(fingerType: string, qualityThreshold: int)

  /** A request whose fields were not supplied. */
  function DefaultRequest(): (r: StartEnrollmentRequest)
    ensures r.fingerType == "index" && r.qualityThreshold == 60
  {
    StartEnrollmentRequest("index", 60)
  }

  const DefaultInstruction: string := "Place your finger on the scanner..."

  /**
    One session of the session manager. `template` holds the template bytes
    (the source keeps their Base64 text); `quality` and `error` stay absent
    until the process assigns them. The capture-session object a session
    owns is not a field: removing the session is what disposes it.
   */
  datatype EnrollmentSession = EnrollmentSession(
    sessionId: string,
    startTime: int,
    fingerType: string,
    qualityThreshold: int,
    status: Phase,
    progress: int,
    instruction: string,
    template: Option<Bytes>,
    quality: Option<real>,
    error: Option<string>,
    isActive: bool)

  /** A session built with only its identity, start time and request fields set. */
  function NewSession(id: string, startTime: int, fingerType: string, qualityThreshold: int): (s: EnrollmentSession)
    ensures s.sessionId == id && s.startTime == startTime
    ensures s.fingerType == fingerType && s.qualityThreshold == qualityThreshold
    ensures s.status == Waiting && s.progress == 0 && s.instruction == DefaultInstruction
    ensures s.template == None && s.quality == None && s.error == None
    ensures s.isActive
  {
    EnrollmentSession(id, startTime, fingerType, qualityThreshold, Waiting, 0, DefaultInstruction,
                      None, None, None, true)
  }
}

=== FILE: register_page.dfy ===
/**
  The decision logic of the employee registration page's script
  (DeviceBridge/register.blade.php): the RFID field sanitiser, the
  keyboard-wedge burst counter, and the predicates that enable the
  register and capture buttons and choose the status texts. Form fields
  are plain strings; an element the script reads with `?.` may be absent.
 */
module RegisterPage {
  import opened Common

  // ---------------------------------------------------------------------------
  // The RFID sanitiser

  predicate IsHexDigit(c: char)
  {
    ('0' <= c <= '9') || ('A' <= c <= 'F') || ('a' <= c <= 'f')
  }

  predicate IsUpperHexDigit(c: char)
  {
    ('0' <= c <= '9') || ('A' <= c <= 'F')
  }

  /** Upper-casing as it acts on a hex digit. */
  function UpperHex(c: char): (u: char)
    requires IsHexDigit(c)
    ensures IsUpperHexDigit(u)
    ensures IsUpperHexDigit(c) ==> u == c
    ensures 'a' <= c <= 'f' ==> u as int == c as int - 32
  {
    if 'a' <= c <= 'f' then (c as int - 32) as char else c
  }

  predicate HasHex(s: string)
  {
    exists i :: 0 <= i < |s| && IsHexDigit(s[i])
  }

  predicate AllUpperHex(s: string)
  {
    forall i :: 0 <= i < |s| ==> IsUpperHexDigit(s[i])
  }

  /** Delete every character that is not a hex digit, then upper-case what is left. */
  function HexOnly(s: string): (r: string)
    ensures AllUpperHex(r)
    ensures |r| <= |s|
    ensures r == [] <==> !HasHex(s)
    ensures |s| == 1 ==> r == (if IsHexDigit(s[0]) then [UpperHex(s[0])] else [])
    decreases |s|
  {
    if s == [] then []
    else
      var rest := HexOnly(s[1..]);
      assert HasHex(s) <==> IsHexDigit(s[0]) || HasHex(s[1..]) by {
        if HasHex(s[1..]) {
          var i :| 0 <= i < |s[1..]| && IsHexDigit(s[1..][i]);
          assert s[i + 1] == s[1..][i];
        }
        if HasHex(s) && !IsHexDigit(s[0]) {
          var i :| 0 <= i < |s| && IsHexDigit(s[i]);
          assert s[1..][i - 1] == s[i];
        }
      }
      if IsHexDigit(s[0]) then [UpperHex(s[0])] + rest else rest
  }

  /** The filter works character by character: filtering a concatenation filters each part. */
  lemma {:induction false} HexOnlyAppend(a: string, b: string)
    ensures HexOnly(a + b) == HexOnly(a) + HexOnly(b)
    decreases |a|
  {
    if a == [] {
      assert a + b == b;
    } else {
      assert (a + b)[0] == a[0];
      assert (a + b)[1..] == a[1..] + b;
      HexOnlyAppend(a[1..], b);
    }
  }

  /** A string of upper-case hex digits passes the filter unchanged. */
  lemma {:induction false} HexOnlyKeepsUpperHex(s: string)
    requires AllUpperHex(s)
    ensures HexOnly(s) == s
    decreases |s|
  {
    if s != [] {
      HexOnlyKeepsUpperHex(s[1..]);
    }
  }

  /** Filtering twice is filtering once. */
  lemma HexOnlyIdempotent(s: string)
    ensures HexOnly(HexOnly(s)) == HexOnly(s)
  {
    HexOnlyKeepsUpperHex(HexOnly(s));
  }

  /** Drop leading white space (ECMAScript's notion of it). */
  function TrimStart(s: string): (r: string)
    ensures |r| <= |s| && r == s[|s| - |r|..]
    ensures forall i :: 0 <= i < |s| - |r| ==> IsJsSpace(s[i])
    ensures r != [] ==> !IsJsSpace(r[0])
    decreases |s|
  {
    if s != [] && IsJsSpace(s[0]) then TrimStart(s[1..]) else s
  }

  /** Drop trailing white space. */
  function TrimEnd(s: string): (r: string)
    ensures |r| <= |s| && r == s[..|r|]
    ensures forall i :: |r| <= i < |s| ==> IsJsSpace(s[i])
    ensures r != [] ==> !IsJsSpace(r[|r| - 1])
    decreases |s|
  {
    if s != [] && IsJsSpace(s[|s| - 1]) then TrimEnd(s[..|s| - 1]) else s
  }

  /** TrimEnd after TrimStart keeps a slice of s whose outside is all white space. */
  lemma TrimSlice(s: string)
    ensures var t := TrimStart(s); var r := TrimEnd(t); var off := |s| - |t|;
      && off + |r| <= |s|
      && (forall k :: 0 <= k < |r| ==> r[k] == s[off + k])
      && (forall k :: 0 <= k < off ==> IsJsSpace(s[k]))
      && (forall k :: off + |r| <= k < |s| ==> IsJsSpace(s[k]))
  {
    var t := TrimStart(s);
    var r := TrimEnd(t);
    var off := |s| - |t|;
    assert t == s[off..];
    assert r == t[..|r|];
    forall k | 0 <= k < |r|
      ensures r[k] == s[off + k]
    {
      assert r[k] == t[k];
    }
    forall k | off + |r| <= k < |s|
      ensures IsJsSpace(s[k])
    {
      assert s[k] == t[k - off];
    }
  }

  /** Every character of a slice of s is a character of s. */
  lemma SliceCharsIn(s: string, off: nat, r: string)
    requires off + |r| <= |s|
    requires forall k :: 0 <= k < |r| ==> r[k] == s[off + k]
    ensures forall k :: 0 <= k < |r| ==> r[k] in s
  {
    forall k | 0 <= k < |r|
      ensures r[k] in s
    {
      assert s[off + k] in s;
    }
  }

  /** Trimming both ends keeps only characters of the input. */
  lemma TrimKeepsChars(s: string)
    ensures var r := TrimEnd(TrimStart(s));
      forall k :: 0 <= k < |r| ==> r[k] in s
  {
    TrimSlice(s);
    SliceCharsIn(s, |s| - |TrimStart(s)|, TrimEnd(TrimStart(s)));
  }

  /** Trimming both ends leaves no white space at either end. */
  lemma TrimEndsNonSpace(s: string)
    ensures var r := TrimEnd(TrimStart(s));
      r != [] ==> !IsJsSpace(r[0]) && !IsJsSpace(r[|r| - 1])
  {
    var t := TrimStart(s);
    var r := TrimEnd(t);
    if r != [] {
      assert r[0] == t[0];
    }
  }

  /** Trimming both ends gives nothing exactly when the input is all white space. */
  lemma TrimEmptyIffBlank(s: string)
    ensures TrimEnd(TrimStart(s)) == [] <==> forall k :: 0 <= k < |s| ==> IsJsSpace(s[k])
  {
    TrimSlice(s);
    var t := TrimStart(s);
    var r := TrimEnd(t);
    if r != [] {
      assert r[0] == s[|s| - |t|];
    }
  }

  /** What trimming both ends promises, gathered from the lemmas above. */
  lemma TrimBothEnds(s: string)
    ensures var r := TrimEnd(TrimStart(s)); var off := |s| - |TrimStart(s)|;
      && |r| <= |s|
      && (forall k :: 0 <= k < |r| ==> r[k] in s)
      && (r != [] ==> !IsJsSpace(r[0]) && !IsJsSpace(r[|r| - 1]))
      && (r == [] <==> forall k :: 0 <= k < |s| ==> IsJsSpace(s[k]))
      && off + |r| <= |s|
      && (forall k :: 0 <= k < |r| ==> r[k] == s[off + k])
      && (forall k :: 0 <= k < off ==> IsJsSpace(s[k]))
      && (forall k :: off + |r| <= k < |s| ==> IsJsSpace(s[k]))
  {
    TrimSlice(s);
    TrimKeepsChars(s);
    TrimEndsNonSpace(s);
    TrimEmptyIffBlank(s);
  }

  /** String.prototype.trim: white space removed from both ends, nothing else. */
  function Trim(s: string): (r: string)
    ensures |r| <= |s|
    ensures forall k :: 0 <= k < |r| ==> r[k] in s
    ensures r != [] ==> !IsJsSpace(r[0]) && !IsJsSpace(r[|r| - 1])
    ensures r == [] <==> forall k :: 0 <= k < |s| ==> IsJsSpace(s[k])
    ensures var off := |s| - |TrimStart(s)|;
      && off + |r| <= |s|
      && (forall k :: 0 <= k < |r| ==> r[k] == s[off + k])
      && (forall k :: 0 <= k < off ==> IsJsSpace(s[k]))
      && (forall k :: off + |r| <= k < |s| ==> IsJsSpace(s[k]))
  {
    TrimBothEnds(s);
    TrimEnd(TrimStart(s))
  }

  /** A string with no white space at either end trims to itself. */
  lemma TrimOfTrimmed(s: string)
    requires s != [] ==> !IsJsSpace(s[0]) && !IsJsSpace(s[|s| - 1])
    ensures Trim(s) == s
  {
  }

  lemma TrimIdempotent(s: string)
    ensures Trim(Trim(s)) == Trim(s)
  {
    TrimOfTrimmed(Trim(s));
  }

  /** Trimming keeps a substring, so it cannot introduce a hex digit. */
  lemma TrimKeepsNoHex(s: string)
    requires !HasHex(s)
    ensures !HasHex(Trim(s))
  {
    var r := Trim(s);
    forall k | 0 <= k < |r|
      ensures !IsHexDigit(r[k])
    {
      assert r[k] in s;
      var j :| 0 <= j < |s| && s[j] == r[k];
    }
  }

  /**
    sanitize: if the value has a hex digit, keep only the hex digits in
    order, upper-cased; otherwise fall back to the trimmed value.
   */
  function Sanitize(s: string): (r: string)
    ensures HasHex(s) ==> r == HexOnly(s) && r != [] && AllUpperHex(r)
    ensures !HasHex(s) ==> r == Trim(s)
  {
    var hex := HexOnly(s);
    if hex != [] then hex else Trim(s)
  }

  /** Sanitizing a sanitized value changes nothing. */
  lemma SanitizeIdempotent(s: string)
    ensures Sanitize(Sanitize(s)) == Sanitize(s)
  {
    if HasHex(s) {
      HexOnlyIdempotent(s);
    } else {
      TrimKeepsNoHex(s);
      TrimIdempotent(s);
    }
  }

  /**
    The input handler writes the sanitized value back only when it
    differs from what the field holds.
   */
  function RewriteField(field: string): (r: (string, bool))
    ensures r.0 == Sanitize(field)
    ensures r.1 <==> field != Sanitize(field)
  {
    var v := Sanitize(field);
    (v, field != v)
  }

  /**
    The value written back is already sanitized: running the handler on it
    would neither change it nor write again.
   */
  lemma RewriteSettles(field: string)
    ensures !RewriteField(RewriteField(field).0).1
    ensures RewriteField(RewriteField(field).0).0 == RewriteField(field).0
  {
    SanitizeIdempotent(field);
  }

  /** A reader's hex UID with a trailing carriage return and line feed comes out as the upper-case UID. */
  lemma ReaderLineSanitizes()
    ensures Sanitize("9fA\r\n") == "9FA"
  {
    assert HexOnly("\n") == [] by { assert "\n"[1..] == []; }
    assert HexOnly("\r\n") == [] by { assert "\r\n"[1..] == "\n"; }
    assert HexOnly("A\r\n") == "A" by { assert "A\r\n"[1..] == "\r\n"; }
    assert HexOnly("fA\r\n") == "FA" by { assert "fA\r\n"[1..] == "A\r\n"; }
    assert HexOnly("9fA\r\n") == "9FA" by { assert "9fA\r\n"[1..] == "fA\r\n"; }
  }

  // ---------------------------------------------------------------------------
  // The keyboard-wedge burst counter

  const FastGapMs: real := 35.0
  const BurstWindowMs: real := 400.0
  const MinBurst: int := 4

  /** The handler's two variables; both start at zero. */
  datatype Burst = Burst(lastTs: real, count: int)

  const InitialBurst: Burst := Burst(0.0, 0)

  /**
    One keydown at time `now`: a key within 35 ms of the previous one
    counts, a pause longer than 400 ms starts over, anything between keeps
    the count; the timestamp is always recorded.
   */
  function KeyDown(b: Burst, now: real): (r: Burst)
    ensures r.lastTs == now
    ensures now - b.lastTs < FastGapMs ==> r.count == b.count + 1
    ensures now - b.lastTs > BurstWindowMs ==> r.count == 0
    ensures FastGapMs <= now - b.lastTs <= BurstWindowMs ==> r.count == b.count
  {
    var gap := now - b.lastTs;
    var count := if gap < FastGapMs then b.count + 1 else if gap > BurstWindowMs then 0 else b.count;
    Burst(now, count)
  }

  /** A run of keydowns, in order: the last key's time is recorded, and each key adds at most one. */
  function KeyDowns(b: Burst, times: seq<real>): (r: Burst)
    ensures times == [] ==> r == b
    ensures times != [] ==> r.lastTs == Last(times)
    ensures b.count >= 0 ==> 0 <= r.count <= b.count + |times|
    decreases |times|
  {
    if times == [] then b
    else
      assert |times| > 1 ==> Last(times[1..]) == Last(times);
      KeyDowns(KeyDown(b, times[0]), times[1..])
  }

  /** The count never becomes negative. */
  lemma {:induction false} BurstCountNonNegative(b: Burst, times: seq<real>)
    requires b.count >= 0
    ensures KeyDowns(b, times).count >= 0
    decreases |times|
  {
    if times != [] {
      BurstCountNonNegative(KeyDown(b, times[0]), times[1..]);
    }
  }

  /** The gap before the i-th keydown. */
  function Gap(b: Burst, times: seq<real>, i: int): real
    requires 0 <= i < |times|
  {
    times[i] - (if i == 0 then b.lastTs else times[i - 1])
  }

  /** Keys that each follow the previous one within 35 ms each add one to the count. */
  lemma {:induction false} FastRunCounts(b: Burst, times: seq<real>)
    requires forall i :: 0 <= i < |times| ==> Gap(b, times, i) < FastGapMs
    ensures KeyDowns(b, times).count == b.count + |times|
    ensures times != [] ==> KeyDowns(b, times).lastTs == Last(times)
    decreases |times|
  {
    if times != [] {
      var b' := KeyDown(b, times[0]);
      assert Gap(b, times, 0) < FastGapMs;
      forall i | 0 <= i < |times[1..]|
        ensures Gap(b', times[1..], i) < FastGapMs
      {
        assert Gap(b', times[1..], i) == Gap(b, times, i + 1);
      }
      FastRunCounts(b', times[1..]);
    }
  }

  /** Typing at human speed, every pause between 35 and 400 ms, leaves the count as it was. */
  lemma {:induction false} ModerateTypingKeepsCount(b: Burst, times: seq<real>)
    requires forall i :: 0 <= i < |times| ==> FastGapMs <= Gap(b, times, i) <= BurstWindowMs
    ensures KeyDowns(b, times).count == b.count
    decreases |times|
  {
    if times != [] {
      var b' := KeyDown(b, times[0]);
      assert FastGapMs <= Gap(b, times, 0) <= BurstWindowMs;
      forall i | 0 <= i < |times[1..]|
        ensures FastGapMs <= Gap(b', times[1..], i) <= BurstWindowMs
      {
        assert Gap(b', times[1..], i) == Gap(b, times, i + 1);
      }
      ModerateTypingKeepsCount(b', times[1..]);
    }
  }

  /** After a pause longer than the window, what happened before no longer matters. */
  lemma PauseForgetsHistory(b1: Burst, b2: Burst, times: seq<real>)
    requires |times| > 0
    requires times[0] - b1.lastTs > BurstWindowMs && times[0] - b2.lastTs > BurstWindowMs
    ensures KeyDowns(b1, times) == KeyDowns(b2, times)
  {
    assert KeyDown(b1, times[0]) == KeyDown(b2, times[0]);
  }

  /** "RFID input detected" is shown for a non-empty sanitized value after a burst of at least four. */
  predicate RfidDetected(sanitized: string, b: Burst)
  {
    sanitized != [] && b.count >= MinBurst
  }

  /**
    A wedge reader that types a hex UID with at least four keys, each
    within 35 ms of the previous, is recognised whatever the count was.
   */
  lemma WedgeRecognised(b: Burst, times: seq<real>, field: string)
    requires b.count >= 0 && |times| >= MinBurst && HasHex(field)
    requires forall i :: 0 <= i < |times| ==> Gap(b, times, i) < FastGapMs
    ensures RfidDetected(Sanitize(field), KeyDowns(b, times))
  {
    FastRunCounts(b, times);
  }

  // ---------------------------------------------------------------------------
  // Register button and hint

  /**
    The fields the register predicate reads. The department and RFID
    elements are read with `?.`, so they may be missing; a template is
    present when its hidden input holds a non-empty value.
   */
  datatype Form = Form(
    name: string,
    employeeId: string,
    department: Option<string>,
    rfid: Option<string>,
    primaryTemplate: string,
    backupTemplate: string)

  /** `(x?.value || '')`: a missing element reads as the empty string. */
  function ValueOrEmpty(v: Option<string>): (r: string)
    ensures v.None? ==> r == []
    ensures v.Some? ==> r == v.value
  {
    if v.Some? then v.value else []
  }

  predicate HasPrimary(f: Form)
  {
    f.primaryTemplate != []
  }

  /** Name, id, department and RFID all non-blank after trimming, and a primary template. */
  predicate RegisterEnabled(f: Form)
  {
    && Trim(f.name) != [] && Trim(f.employeeId) != [] && Trim(ValueOrEmpty(f.department)) != []
    && HasPrimary(f) && |Trim(ValueOrEmpty(f.rfid))| > 0
  }

  /** The backup template never matters for registering. */
  lemma BackupNeverRequired(f: Form, backup: string)
    ensures RegisterEnabled(f.(backupTemplate := backup)) == RegisterEnabled(f)
  {
  }

  datatype Hint = ReadyToSubmit | PrimaryRequired | RfidRequired | FillAllFields

  function HintText(h: Hint): string
  {
    match h
    case ReadyToSubmit => "Ready to submit."
    case PrimaryRequired => "Primary fingerprint is required."
    case RfidRequired => "RFID scan is required."
    case FillAllFields => "Please fill all required fields."
  }

  /** The hint below the register button: ready, then primary missing, then RFID missing, then the rest. */
  function RegisterHint(f: Form): (h: Hint)
    ensures h == ReadyToSubmit <==> RegisterEnabled(f)
    ensures !RegisterEnabled(f) && !HasPrimary(f) ==> h == PrimaryRequired
    ensures h == RfidRequired <==> HasPrimary(f) && Trim(ValueOrEmpty(f.rfid)) == []
    ensures h == FillAllFields <==>
      HasPrimary(f) && Trim(ValueOrEmpty(f.rfid)) != [] &&
      (Trim(f.name) == [] || Trim(f.employeeId) == [] || Trim(ValueOrEmpty(f.department)) == [])
  {
    if RegisterEnabled(f) then ReadyToSubmit
    else if !HasPrimary(f) then PrimaryRequired
    else if Trim(ValueOrEmpty(f.rfid)) == [] then RfidRequired
    else FillAllFields
  }

  // ---------------------------------------------------------------------------
  // Capture buttons and overall status

  datatype Buttons = Buttons(primaryEnabled: bool, backupEnabled: bool)

  /**
    The capture buttons after a device-status update: both disabled while
    the device is missing or an enrollment runs; otherwise primary while no
    primary exists, backup once a primary exists and no backup does.
   */
  function CaptureButtons(deviceConnected: bool, enrolling: bool, hasPrimary: bool, hasBackup: bool): (b: Buttons)
    ensures !deviceConnected || enrolling ==> !b.primaryEnabled && !b.backupEnabled
    ensures deviceConnected && !enrolling ==> b.primaryEnabled == !hasPrimary
    ensures deviceConnected && !enrolling ==> b.backupEnabled == (hasPrimary && !hasBackup)
  {
    if deviceConnected && !enrolling then Buttons(!hasPrimary, hasPrimary && !hasBackup)
    else Buttons(false, false)
  }

  /** At most one capture button is ever enabled, and only an idle connected device enables one. */
  lemma OneCaptureButtonAtMost(deviceConnected: bool, enrolling: bool, hasPrimary: bool, hasBackup: bool)
    ensures var b := CaptureButtons(deviceConnected, enrolling, hasPrimary, hasBackup);
      && !(b.primaryEnabled && b.backupEnabled)
      && (b.primaryEnabled || b.backupEnabled ==> deviceConnected && !enrolling)
      && (deviceConnected && !enrolling ==> (b.primaryEnabled || b.backupEnabled || hasPrimary))
  {
  }

  datatype OverallStatus = BothCaptured | PrimaryOnly | PrimaryNeeded | BridgeNeeded

  function OverallStatusText(s: OverallStatus): string
  {
    match s
    case BothCaptured => "Both fingerprints captured successfully."
    case PrimaryOnly => "Primary fingerprint captured. Backup fingerprint is optional."
    case PrimaryNeeded => "Primary fingerprint required to proceed."
    case BridgeNeeded => "Device Bridge connection required."
  }

  /** The fingerprint summary line: both, then primary only, then a connected device, then none. */
  function FingerprintStatus(hasPrimary: bool, hasBackup: bool, deviceConnected: bool): (s: OverallStatus)
    ensures s == BothCaptured <==> hasPrimary && hasBackup
    ensures s == PrimaryOnly <==> hasPrimary && !hasBackup
    ensures s == PrimaryNeeded <==> !hasPrimary && deviceConnected
    ensures s == BridgeNeeded <==> !hasPrimary && !deviceConnected
  {
    if hasPrimary && hasBackup then BothCaptured
    else if hasPrimary then PrimaryOnly
    else if deviceConnected then PrimaryNeeded
    else BridgeNeeded
  }

  /** A captured primary decides the summary whatever the device does; a backup alone counts for nothing. */
  lemma PrimaryDominatesStatus(hasBackup: bool, c1: bool, c2: bool)
    ensures FingerprintStatus(true, hasBackup, c1) == FingerprintStatus(true, hasBackup, c2)
    ensures FingerprintStatus(false, hasBackup, c1) == FingerprintStatus(false, false, c1)
  {
  }
}

=== FILE: registration_panel.dfy ===
/**
  The two-template sequencing of the kiosk's registration panel
  (DeviceBridge/FingerprintRegistrationPanel.xaml.cs): which template is
  being captured, the list of finished templates, and when the panel moves
  on to the RFID step.

  The panel talks to the vendor SDK directly. A finished sample arrives
  with the extractor's verdict and the builder's reply (the same oracle
  the capture session uses); starting a capture is a success flag. Labels,
  message boxes and the countdown overlay are left out, except for whether
  the overlay armed a timer.
 */
module RegistrationPanel {
  import opened Common
  import Enroll

  /** Templates collected per registration. */
  const MaxTemplates: int := 2

  /** The fixed quality recorded with every template. */
  const TemplateQuality: real := 85.0

  datatype FingerprintTemplate = FingerprintTemplate(
    templateIndex: int,
    templateBytes: Bytes,
    fingerPosition: string,
    quality: real)

  /** What showing the step prompt after the first template did. */
  datatype Prompt =
    | Overlay       // the overlay exists: a two-second countdown timer is armed
    | NoOverlay     // the overlay control is missing: nothing happens
    | PromptThrew   // showing it threw: the fallback advances at once

  /**
    The panel state the sequencing depends on. `capturing` is whether the
    current capture object delivers samples to the panel, `startEnabled`
    the start button, `pendingTimers` the countdown timers not yet fired,
    and `rfidShown` how often the parent window was told to show the RFID step.
   */
  datatype Panel = Panel(
    index: int,
    templates: seq<FingerprintTemplate>,
    capturing: bool,
    progress: int,
    startEnabled: bool,
    pendingTimers: nat,
    hasParent: bool,
    rfidShown: nat)

  /** A freshly constructed panel. */
  function Initial(hasParent: bool): (p: Panel)
    ensures p.index == 1 && p.templates == [] && !p.capturing && p.startEnabled && p.rfidShown == 0
  {
    Panel(1, [], false, 0, true, 0, hasParent, 0)
  }

  /** Decimal rendering of any index, with a minus sign for negatives. */
  function IntToString(n: int): (r: string)
    ensures |r| >= 1
    ensures n >= 0 ==> r == NatToString(n)
  {
    if n < 0 then "-" + NatToString(-n) else NatToString(n)
  }

  /** The finger asked for at each index; the status line and the stored template use the same words. */
  function FingerLabel(index: int): (r: string)
    ensures index == 1 ==> r == "Index Finger (Primary)"
    ensures index == 2 ==> r == "Thumb (Backup)"
    ensures index != 1 && index != 2 ==> r == "Finger " + IntToString(index)
  {
    if index == 1 then "Index Finger (Primary)"
    else if index == 2 then "Thumb (Backup)"
    else "Finger " + IntToString(index)
  }

  /** Distinct positive indices are labelled differently, so a stored label names its index. */
  lemma FingerLabelInjective(a: int, b: int)
    requires a >= 1 && b >= 1
    ensures FingerLabel(a) == FingerLabel(b) <==> a == b
  {
    assert FingerLabel(1)[0] == 'I' && FingerLabel(2)[0] == 'T';
    assert forall n :: n > 2 ==> FingerLabel(n)[0] == 'F';
    if a > 2 && b > 2 && FingerLabel(a) == FingerLabel(b) {
      var pre := "Finger ";
      assert FingerLabel(a)[|pre|..] == NatToString(a);
      assert FingerLabel(b)[|pre|..] == NatToString(b);
      NatToStringInjective(a, b);
    }
  }

  /**
    The progress bar after a good sample: min(100, (4 - needed) * 25) in
    unsigned 32-bit arithmetic, since the builder's count is a `uint`. For
    the counts a fresh builder reports it agrees with the capture session.
    A larger count wraps to a large value and shows 100 while
    (needed - 4) * 25 stays at most 2^32 - 100. For such counts the
    capture session's signed arithmetic is negative until its product
    overflows an `int`.
   */
  function PanelProgress(needed: UInt32): (p: int)
    ensures 0 <= p <= 100
    ensures needed <= Enroll.RequiredScans ==> p == Enroll.SampleProgress(needed)
    ensures Enroll.RequiredScans < needed && (needed - Enroll.RequiredScans) * 25 <= UintRange - 100 ==> p == 100
  {
    var raw := ((Enroll.RequiredScans - needed) * 25) % UintRange;
    if raw < 100 then raw else 100
  }

  /** The panel keeps a feature set only on Good feedback. */
  predicate PanelAccepts(sample: Enroll.Sample)
  {
    sample.extraction.Extracted? && sample.extraction.feedback == Enroll.Good
  }

  /** The panel is stricter than the capture session: it accepts a subset, and NoFeedback separates them. */
  lemma PanelStricterThanService(sample: Enroll.Sample)
    ensures PanelAccepts(sample) ==> Enroll.Accepted(sample)
    ensures sample.extraction.Extracted? && sample.extraction.feedback == Enroll.NoFeedback ==>
      Enroll.Accepted(sample) && !PanelAccepts(sample)
  {
  }

  /** A good sample on which the builder became Ready with a template that serializes. */
  predicate ReadyWithBytes(sample: Enroll.Sample)
  {
    && PanelAccepts(sample)
    && sample.addition.Added? && sample.addition.status == Enroll.Ready
    && sample.addition.template.Some? && sample.addition.template.value.serialized.Some?
  }

  /** A good sample on which the builder reported Failed. */
  predicate FailsPanelBuilder(sample: Enroll.Sample)
  {
    PanelAccepts(sample) && sample.addition.Added? && sample.addition.status == Enroll.BuilderStatus.Failed
  }

  /** A sample on which the extractor or the builder threw; the handler's outer catch takes over. */
  predicate Throws(sample: Enroll.Sample)
  {
    sample.extraction.ExtractorThrew? || (PanelAccepts(sample) && sample.addition.BuilderThrew?)
  }

  /** The template recorded for the current index. */
  function MakeTemplate(index: int, bytes: Bytes): (t: FingerprintTemplate)
    ensures t.templateIndex == index && t.templateBytes == bytes
    ensures t.fingerPosition == FingerLabel(index) && t.quality == 85.0
  {
    FingerprintTemplate(index, bytes, FingerLabel(index), TemplateQuality)
  }

  // ---------------------------------------------------------------------------
  // Buttons and transitions

  /** StopCaptureSafe: stop the capture and detach the panel from it; failures are swallowed. */
  function StopCapture(p: Panel): (r: Panel)
    ensures !r.capturing && r == p.(capturing := false)
  {
    p.(capturing := false)
  }

  /** An error path: stop capturing and re-enable the start button. */
  function Abort(p: Panel): (r: Panel)
    ensures !r.capturing && r.startEnabled
    ensures r.index == p.index && r.templates == p.templates && r.rfidShown == p.rfidShown
  {
    StopCapture(p).(startEnabled := true)
  }

  /**
    BeginFingerprintEnrollment: a new builder and capture object, the bar
    at zero; a capture that fails to start re-enables the start button.
   */
  function Begin(p: Panel, startSucceeds: bool): (r: Panel)
    ensures r.index == p.index && r.templates == p.templates && r.rfidShown == p.rfidShown
    ensures r.progress == 0 && r.capturing == startSucceeds
    ensures r.startEnabled == (p.startEnabled || !startSucceeds)
    ensures r.pendingTimers == p.pendingTimers
  {
    p.(progress := 0, capturing := startSucceeds, startEnabled := p.startEnabled || !startSucceeds)
  }

  /** The start button: forget collected templates and capture the first one. */
  function Start(p: Panel, startSucceeds: bool): (r: Panel)
    ensures r.index == 1 && r.templates == []
    ensures r.capturing == startSucceeds && r.startEnabled == !startSucceeds
    ensures r.rfidShown == p.rfidShown && r.pendingTimers == p.pendingTimers
  {
    Begin(p.(templates := [], index := 1, startEnabled := false), startSucceeds)
  }

  /** The next-template handler: advance and capture only while below the maximum; otherwise do nothing. */
  function NextTemplate(p: Panel, startSucceeds: bool): (r: Panel)
    ensures p.index < MaxTemplates ==>
      r.index == p.index + 1 && r.capturing == startSucceeds && r.templates == p.templates && r.rfidShown == p.rfidShown
    ensures p.index >= MaxTemplates ==> r == p
  {
    if p.index < MaxTemplates then Begin(p.(index := p.index + 1), startSucceeds) else p
  }

  /** ProceedToRfidRegistration: refused with no templates; otherwise the parent, if any, shows the RFID step. */
  function ProceedToRfid(p: Panel): (r: Panel)
    ensures |p.templates| == 0 ==> r == p
    ensures |p.templates| > 0 ==> r == p.(rfidShown := p.rfidShown + if p.hasParent then 1 else 0)
  {
    if |p.templates| == 0 then p
    else if p.hasParent then p.(rfidShown := p.rfidShown + 1)
    else p
  }

  /**
    After a template was stored: the completed-templates display shows the
    step prompt when exactly one template exists, then the post-template
    options advance below the maximum or proceed to the RFID step.
   */
  function AfterTemplate(p: Panel, prompt: Prompt, startSucceeds: bool): (r: Panel)
    ensures r.templates == p.templates
    ensures |p.templates| != 1 || prompt != PromptThrew ==>
      r == (if p.index < MaxTemplates then NextTemplate(p, startSucceeds) else ProceedToRfid(p))
             .(pendingTimers := p.pendingTimers + if |p.templates| == 1 && prompt == Overlay then 1 else 0)
    ensures |p.templates| == 1 && prompt == PromptThrew ==>
      var advanced := NextTemplate(p, startSucceeds);
      r == (if advanced.index < MaxTemplates then NextTemplate(advanced, startSucceeds) else ProceedToRfid(advanced))
  {
    var prompted :=
      if |p.templates| != 1 then p
      else match prompt
        case Overlay => p.(pendingTimers := p.pendingTimers + 1)
        case NoOverlay => p
        case PromptThrew => NextTemplate(p, startSucceeds);
    if prompted.index < MaxTemplates then NextTemplate(prompted, startSucceeds) else ProceedToRfid(prompted)
  }

  /** The Ready branch with a serializable template: store it, stop capture, show 100 % and move on. */
  function StoreTemplate(p: Panel, bytes: Bytes, prompt: Prompt, startSucceeds: bool): (r: Panel)
    ensures r.templates == p.templates + [MakeTemplate(p.index, bytes)]
    ensures p.index < MaxTemplates && prompt != PromptThrew ==>
      r.index == p.index + 1 && r.capturing == startSucceeds && r.rfidShown == p.rfidShown
    ensures p.index >= MaxTemplates ==>
      r.index == p.index && !r.capturing && r.rfidShown == p.rfidShown + (if p.hasParent then 1 else 0)
  {
    var stored := p.(templates := p.templates + [MakeTemplate(p.index, bytes)]);
    AfterTemplate(StopCapture(stored).(progress := 100), prompt, startSucceeds)
  }

  /**
    OnComplete for a sample delivered while capturing (once capture is
    stopped the panel is detached and receives nothing). Only Good feedback
    is used. Ready appends exactly one template for the current index, stops
    capture and moves on; Failed stops capture and re-enables start; a
    throwing extractor or builder aborts; a Ready template that cannot be
    serialized re-enables start without stopping capture.
   */
  function OnComplete(p: Panel, sample: Enroll.Sample, prompt: Prompt, startSucceeds: bool): (r: Panel)
    requires p.capturing
    ensures ReadyWithBytes(sample) <==> |r.templates| == |p.templates| + 1
    ensures ReadyWithBytes(sample) ==>
      r.templates == p.templates + [MakeTemplate(p.index, sample.addition.template.value.serialized.value)]
    ensures !ReadyWithBytes(sample) ==>
      r.templates == p.templates && r.index == p.index && r.rfidShown == p.rfidShown
    ensures sample.extraction.Extracted? && !PanelAccepts(sample) ==> r == p
    ensures Throws(sample) || FailsPanelBuilder(sample) ==> !r.capturing && r.startEnabled
    ensures FailsPanelBuilder(sample) ==> r.progress == 0
    // a Ready template that does not serialize: start re-enabled, capture and the shown progress kept
    ensures PanelAccepts(sample) && sample.addition.Added? && sample.addition.status == Enroll.Ready && !ReadyWithBytes(sample) ==>
      r == p.(progress := PanelProgress(sample.addition.needed), startEnabled := true)
    ensures PanelAccepts(sample) && sample.addition.Added? && sample.addition.status in {Enroll.Unknown, Enroll.Insufficient} ==>
      r == p.(progress := PanelProgress(sample.addition.needed))
    ensures ReadyWithBytes(sample) && p.index < MaxTemplates && prompt != PromptThrew ==>
      r.index == p.index + 1 && r.capturing == startSucceeds && r.rfidShown == p.rfidShown
    ensures ReadyWithBytes(sample) && p.index >= MaxTemplates ==>
      r.index == p.index && !r.capturing && r.rfidShown == p.rfidShown + (if p.hasParent then 1 else 0)
  {
    match sample.extraction
    case ExtractorThrew => Abort(p)
    case Extracted(feedback, _) =>
      if feedback != Enroll.Good then p
      else
        match sample.addition
        case BuilderThrew => Abort(p)
        case Added(needed, status, template) =>
          var shown := p.(progress := PanelProgress(needed));
          if status == Enroll.Ready then
            if template.Some? && template.value.serialized.Some? then
              StoreTemplate(shown, template.value.serialized.value, prompt, startSucceeds)
            else
              shown.(startEnabled := true)
          else if status == Enroll.BuilderStatus.Failed then
            StopCapture(shown).(progress := 0, startEnabled := true)
          else
            shown
  }

  /** The countdown timer reaches zero and calls the next-template handler. */
  function TimerFires(p: Panel, startSucceeds: bool): (r: Panel)
    requires p.pendingTimers > 0
    ensures r.pendingTimers == p.pendingTimers - 1
    ensures r == NextTemplate(p.(pendingTimers := p.pendingTimers - 1), startSucceeds)
  {
    NextTemplate(p.(pendingTimers := p.pendingTimers - 1), startSucceeds)
  }

  /** GetFingerprintBytes: the first template's bytes, if any. */
  function GetFingerprintBytes(p: Panel): (r: Option<Bytes>)
    ensures r.Some? <==> |p.templates| > 0
    ensures r.Some? ==> r.value == p.templates[0].templateBytes
  {
    if |p.templates| > 0 then Some(p.templates[0].templateBytes) else None
  }

  /** GetFingerprintTemplates: a copy of the list, in collection order. */
  function GetFingerprintTemplates(p: Panel): (r: seq<FingerprintTemplate>)
    ensures |r| == |p.templates|
    ensures forall i :: 0 <= i < |r| ==> r[i] == p.templates[i]
  {
    p.templates[..]
  }

  /** ResetPanel: back to the first template with nothing collected and capture stopped. */
  function ResetPanel(p: Panel): (r: Panel)
    ensures r.index == 1 && r.templates == [] && !r.capturing && r.startEnabled && r.progress == 0
    ensures r.rfidShown == p.rfidShown && r.pendingTimers == p.pendingTimers && r.hasParent == p.hasParent
  {
    StopCapture(p.(index := 1, templates := [], progress := 0, startEnabled := true))
  }

  /** Start and ResetPanel leave the same collection behind: nothing, at the first index. */
  lemma StartAndResetAgree(p: Panel, startSucceeds: bool)
    ensures Start(p, startSucceeds).templates == ResetPanel(p).templates == []
    ensures Start(p, startSucceeds).index == ResetPanel(p).index == 1
  {
  }

  // ---------------------------------------------------------------------------
  // The sequencing invariant

  /**
    The index stays within 1..MaxTemplates; stored templates carry strictly
    increasing indices no later than the current one, each with its own
    label and the fixed quality; while capturing, the current index has no
    template yet.
   */
  ghost predicate Inv(p: Panel)
  {
    && 1 <= p.index <= MaxTemplates
    && (forall i :: 0 <= i < |p.templates| ==> 1 <= p.templates[i].templateIndex <= p.index)
    && (forall i, j :: 0 <= i < j < |p.templates| ==> p.templates[i].templateIndex < p.templates[j].templateIndex)
    && (forall i :: 0 <= i < |p.templates| ==>
          p.templates[i].fingerPosition == FingerLabel(p.templates[i].templateIndex)
          && p.templates[i].quality == TemplateQuality)
    && (p.capturing ==> forall i :: 0 <= i < |p.templates| ==> p.templates[i].templateIndex < p.index)
  }

  lemma InitialInv(hasParent: bool)
    ensures Inv(Initial(hasParent))
  {
  }

  /** Strictly increasing indices starting at one or later: the i-th is at least i + 1. */
  lemma {:induction false} IndicesGrow(t: seq<FingerprintTemplate>, i: nat)
    requires forall k :: 0 <= k < |t| ==> 1 <= t[k].templateIndex
    requires forall k, l :: 0 <= k < l < |t| ==> t[k].templateIndex < t[l].templateIndex
    requires i < |t|
    ensures t[i].templateIndex >= i + 1
  {
    if i > 0 {
      IndicesGrow(t, i - 1);
    }
  }

  /** Under the invariant no more templates are held than the current index, so never more than two. */
  lemma InvBoundsTemplates(p: Panel)
    requires Inv(p)
    ensures |p.templates| <= p.index <= MaxTemplates
  {
    if |p.templates| > 0 {
      IndicesGrow(p.templates, |p.templates| - 1);
    }
  }

  datatype Action =
    | StartClicked(startSucceeds: bool)
    | NextClicked(startSucceeds: bool)
    | SkipOrProceedClicked
    | SampleCompleted(sample: Enroll.Sample, prompt: Prompt, startSucceeds: bool)
    | TimerFired(startSucceeds: bool)
    | Reset

  predicate Enabled(p: Panel, a: Action)
  {
    match a
    case SampleCompleted(_, _, _) => p.capturing
    case TimerFired(_) => p.pendingTimers > 0
    case _ => true
  }

  function Apply(p: Panel, a: Action): Panel
    requires Enabled(p, a)
  {
    match a
    case StartClicked(ok) => Start(p, ok)
    case NextClicked(ok) => NextTemplate(p, ok)
    case SkipOrProceedClicked => ProceedToRfid(p)
    case SampleCompleted(sample, prompt, ok) => OnComplete(p, sample, prompt, ok)
    case TimerFired(ok) => TimerFires(p, ok)
    case Reset => ResetPanel(p)
  }

  /** The invariant reads only the index, the templates and the capturing flag. */
  lemma InvFrame(p: Panel, q: Panel)
    requires Inv(p)
    requires q.index == p.index && q.templates == p.templates && (q.capturing ==> p.capturing)
    ensures Inv(q)
  {
  }

  /** A panel with no templates at the first index satisfies the invariant, whatever else it holds. */
  lemma EmptyAtFirstInv(q: Panel)
    requires q.index == 1 && q.templates == []
    ensures Inv(q)
  {
  }

  lemma NextTemplatePreservesInv(p: Panel, startSucceeds: bool)
    requires Inv(p)
    ensures Inv(NextTemplate(p, startSucceeds))
  {
  }

  lemma AfterTemplatePreservesInv(p: Panel, prompt: Prompt, startSucceeds: bool)
    requires Inv(p) && !p.capturing
    ensures Inv(AfterTemplate(p, prompt, startSucceeds))
  {
    var prompted :=
      if |p.templates| != 1 then p
      else match prompt
        case Overlay => p.(pendingTimers := p.pendingTimers + 1)
        case NoOverlay => p
        case PromptThrew => NextTemplate(p, startSucceeds);
    if |p.templates| == 1 && prompt == PromptThrew {
      NextTemplatePreservesInv(p, startSucceeds);
    } else {
      InvFrame(p, prompted);
    }
    if prompted.index < MaxTemplates {
      NextTemplatePreservesInv(prompted, startSucceeds);
      assert AfterTemplate(p, prompt, startSucceeds) == NextTemplate(prompted, startSucceeds);
    } else {
      InvFrame(prompted, ProceedToRfid(prompted));
      assert AfterTemplate(p, prompt, startSucceeds) == ProceedToRfid(prompted);
    }
  }

  lemma OnCompletePreservesInv(p: Panel, sample: Enroll.Sample, prompt: Prompt, startSucceeds: bool)
    requires Inv(p) && p.capturing
    ensures Inv(OnComplete(p, sample, prompt, startSucceeds))
  {
    if ReadyWithBytes(sample) {
      var bytes := sample.addition.template.value.serialized.value;
      var stored := p.(progress := PanelProgress(sample.addition.needed),
                       templates := p.templates + [MakeTemplate(p.index, bytes)]);
      var stopped := StopCapture(stored).(progress := 100);
      assert Inv(stopped);
      AfterTemplatePreservesInv(stopped, prompt, startSucceeds);
    }
  }

  /** Every button, sample, timer and reset keeps the sequencing invariant. */
  lemma ApplyPreservesInv(p: Panel, a: Action)
    requires Inv(p) && Enabled(p, a)
    ensures Inv(Apply(p, a))
  {
    match a
    case StartClicked(ok) =>
      assert Apply(p, a) == Start(p, ok);
      EmptyAtFirstInv(Start(p, ok));
    case NextClicked(ok) =>
      assert Apply(p, a) == NextTemplate(p, ok);
      NextTemplatePreservesInv(p, ok);
    case SkipOrProceedClicked =>
      assert Apply(p, a) == ProceedToRfid(p);
      InvFrame(p, ProceedToRfid(p));
    case SampleCompleted(sample, prompt, ok) =>
      assert Apply(p, a) == OnComplete(p, sample, prompt, ok);
      OnCompletePreservesInv(p, sample, prompt, ok);
    case TimerFired(ok) =>
      assert Apply(p, a) == TimerFires(p, ok);
      InvFrame(p, p.(pendingTimers := p.pendingTimers - 1));
      NextTemplatePreservesInv(p.(pendingTimers := p.pendingTimers - 1), ok);
    case Reset =>
      assert Apply(p, a) == ResetPanel(p);
      EmptyAtFirstInv(ResetPanel(p));
  }

  // ---------------------------------------------------------------------------
  // Scenarios

  function ReadySample(bytes: Bytes): (sample: Enroll.Sample)
    ensures ReadyWithBytes(sample)
  {
    Enroll.GoodSample(0, Enroll.Ready, Some(Enroll.Template(Some(bytes))))
  }

  /**
    The intended run: start, a Ready primary, a Ready backup. The panel
    holds the index-finger and thumb templates in that order, has stopped
    capturing and has shown the RFID step once (with a parent window).
   */
  lemma TwoTemplatesThenRfid(p: Panel, primary: Bytes, backup: Bytes)
    ensures var started := Start(p, true);
      var first := OnComplete(started, ReadySample(primary), Overlay, true);
      first.capturing &&
      var second := OnComplete(first, ReadySample(backup), Overlay, true);
      && first.index == 2 && first.rfidShown == p.rfidShown
      && second.templates == [MakeTemplate(1, primary), MakeTemplate(2, backup)]
      && second.templates[0].fingerPosition == "Index Finger (Primary)"
      && second.templates[1].fingerPosition == "Thumb (Backup)"
      && !second.capturing
      && second.rfidShown == p.rfidShown + (if p.hasParent then 1 else 0)
      && second.pendingTimers == p.pendingTimers + 1
  {
  }

  /**
    The countdown armed after the primary template fires once the panel
    has already advanced: its next-template call changes nothing.
   */
  lemma TimerAfterAdvanceIsNoOp(p: Panel, startSucceeds: bool)
    requires Inv(p) && p.pendingTimers > 0 && p.index == MaxTemplates
    ensures TimerFires(p, startSucceeds) == p.(pendingTimers := p.pendingTimers - 1)
  {
  }

  /**
    When showing the step prompt throws, the fallback advances to the backup
    and the post-template options then see the last index and proceed to
    the RFID step while the backup capture is running.
   */
  lemma PromptFailureProceedsWithOneTemplate(p: Panel, primary: Bytes)
    ensures var started := Start(p, true);
      var first := OnComplete(started, ReadySample(primary), PromptThrew, true);
      && first.index == 2 && first.capturing
      && first.templates == [MakeTemplate(1, primary)]
      && first.rfidShown == p.rfidShown + (if p.hasParent then 1 else 0)
  {
  }
}

=== FILE: session_manager.dfy ===
/**
  The alternative session registry of
  DeviceBridge/Services/EnrollmentSessionManager.cs: sessions keyed by a
  full GUID, a device lock of its own, status "completed" on success, and a
  periodic sweep that evicts sessions by age since their start.

  The background task of a session contributes three steps: passing the
  device lock's Wait, forwarding a capture-session snapshot, and its end
  (outcome write plus finally).
 */
module SessionManager {
  import opened Common
  import opened EnrollmentModels
  import Enroll

  const SessionTimeoutSeconds: int := 60

  /** The inactivity window handed to TryEnroll. */
  const SessionTimeoutMs: int := SessionTimeoutSeconds * 1000

  /** Sessions that started longer ago than this are swept. */
  const EvictionAgeMs: int := (SessionTimeoutSeconds + 5) * 1000

  /**
    The manager's state: the session map, the device lock, the background
    tasks still waiting for the lock, and those holding it.
   */
  datatype Manager = Manager(
    sessions: map<string, EnrollmentSession>,
    lockFree: bool,
    waiting: set<string>,
    running: set<string>)

  const EmptyManager: Manager := Manager(map[], true, {}, {})

  /** At most one task holds the device lock, and the lock is free exactly when none does. */
  ghost predicate Inv(m: Manager)
  {
    && |m.running| <= 1
    && (m.lockFree <==> m.running == {})
    && m.waiting !! m.running
  }

  predicate Fresh(m: Manager, id: string)
  {
    id !in m.sessions && id !in m.waiting && id !in m.running
  }

  // ---------------------------------------------------------------------------
  // Map operations

  /**
    StartEnrollmentSession: build the capture session, then store a new
    waiting session under the fresh id and start its task. `serviceBuilt`
    says whether the capture session's constructor returned; when it throws,
    the exception leaves the call before anything is stored or started, and
    the result carries no id.
   */
  function StartEnrollmentSession(m: Manager, id: string, now: int, fingerType: string, qualityThreshold: int,
                                  serviceBuilt: bool): (r: (Manager, Option<string>))
    requires Fresh(m, id)
    ensures r.1.Some? <==> serviceBuilt
    ensures !serviceBuilt ==> r.0 == m
    ensures serviceBuilt ==>
      && r.1 == Some(id)
      && r.0.sessions == m.sessions[id := NewSession(id, now, fingerType, qualityThreshold)]
      && r.0.waiting == m.waiting + {id} && r.0.running == m.running && r.0.lockFree == m.lockFree
  {
    if !serviceBuilt then (m, None)
    else
      (m.(sessions := m.sessions[id := NewSession(id, now, fingerType, qualityThreshold)],
          waiting := m.waiting + {id}), Some(id))
  }

  /** GetSession: the stored session, or nothing. */
  function GetSession(sessions: map<string, EnrollmentSession>, id: string): (r: Option<EnrollmentSession>)
    ensures r.Some? <==> id in sessions
    ensures r.Some? ==> r.value == sessions[id]
  {
    if id in sessions then Some(sessions[id]) else None
  }

  /** RemoveSession: take the session out and dispose it, if it is there. */
  function RemoveSession(sessions: map<string, EnrollmentSession>, id: string)
    : (r: (map<string, EnrollmentSession>, Option<EnrollmentSession>))
    ensures r.0 == sessions - {id}
    ensures r.1 == GetSession(sessions, id)
  {
    if id in sessions then (sessions - {id}, Some(sessions[id])) else (sessions, None)
  }

  /** Removing twice is removing once: the second call finds nothing and disposes nothing. */
  lemma RemoveSessionIdempotent(sessions: map<string, EnrollmentSession>, id: string)
    ensures var once := RemoveSession(sessions, id).0;
      RemoveSession(once, id) == (once, None)
  {
  }

  // ---------------------------------------------------------------------------
  // The background task of a session

  /** The Wait on the device lock returns: the background task now holds the lock. */
  function AcquireDevice(m: Manager, id: string): (r: Manager)
    requires id in m.waiting && m.lockFree
    ensures !r.lockFree && r.running == m.running + {id} && r.waiting == m.waiting - {id}
    ensures r.sessions == m.sessions
  {
    m.(lockFree := false, waiting := m.waiting - {id}, running := m.running + {id})
  }

  /**
    The three-argument handler: progress, status and instruction of the
    capture-session snapshot are copied onto the session object; scansLeft
    is dropped. A session already removed from the map is no longer visible.
   */
  function Forward(m: Manager, id: string, snap: Snapshot): (r: Manager)
    requires id in m.running
    ensures r.sessions.Keys == m.sessions.Keys
    ensures id in m.sessions ==>
      r.sessions[id] == m.sessions[id].(progress := snap.progress, status := snap.phase, instruction := snap.message)
    ensures forall k :: k in m.sessions && k != id ==> r.sessions[k] == m.sessions[k]
    ensures r.lockFree == m.lockFree && r.waiting == m.waiting && r.running == m.running
  {
    if id in m.sessions then
      var s := m.sessions[id];
      m.(sessions := m.sessions[id := s.(progress := snap.progress, status := snap.phase, instruction := snap.message)])
    else m
  }

  /**
    The STA worker's call: TryEnroll with the session timeout and the
    overload that passes no cancellation token, so a run never ends cancelled.
   */
  function RunService(service: Enroll.EnrollState, clock: int, startSucceeds: bool, ticks: seq<Enroll.Tick>)
    : (r: Enroll.Run)
    ensures r.outcome != Enroll.CancelledByToken
    ensures r.outcome == Enroll.StartThrew <==> !startSucceeds
    ensures startSucceeds && |ticks| > 0 && ticks[0].clock - clock >= 60000 ==> r.outcome == Enroll.TimedOut
    ensures startSucceeds && (forall i :: 0 <= i < |ticks| ==> ticks[i].callbacks == []) ==>
      && r.emitted == []
      && (r.outcome == Enroll.TimedOut <==> exists i :: 0 <= i < |ticks| && ticks[i].clock - clock >= 60000)
  {
    var reset := Enroll.ResetForEnroll(service, clock).(capturing := true);
    Enroll.TryEnrollWindow(service, clock, startSucceeds, Enroll.WithoutToken(ticks), SessionTimeoutMs);
    Enroll.PumpWithoutTokenNeverCancels(reset, Enroll.WithoutToken(ticks), SessionTimeoutMs);
    Enroll.PumpStopsOnEveryExit(reset, Enroll.WithoutToken(ticks), SessionTimeoutMs);
    Enroll.TryEnroll(service, clock, startSucceeds, Enroll.WithoutToken(ticks), SessionTimeoutMs)
  }

  /** How the STA worker came back: TryEnroll's result, or the exception it rethrows. */
  datatype ProcessResult = Finished(success: bool, templateBytes: Option<Bytes>) | Threw(message: string)

  /** The worker's view of a finished run of the capture session. */
  function FromRun(outcome: Enroll.Outcome, exceptionMessage: string): (p: ProcessResult)
    requires outcome != Enroll.StillPumping
    ensures outcome.Enrolled? <==> p.Finished? && p.success
    ensures outcome.Enrolled? ==> p == Finished(true, Some(outcome.bytes))
    ensures outcome in {Enroll.StartThrew, Enroll.SerializeThrew} <==> p.Threw?
  {
    match outcome
    case Enrolled(bytes) => Finished(true, Some(bytes))
    case StartThrew => Threw(exceptionMessage)
    case SerializeThrew => Threw(exceptionMessage)
    case _ => Finished(false, None)
  }

  /**
    The outcome write and the finally block on the session object:
    success with bytes completes the session with quality 85; anything
    else fails it with the reason; either way the session stops being active.
   */
  function Conclude(s: EnrollmentSession, result: ProcessResult): (r: EnrollmentSession)
    ensures !r.isActive
    ensures r.sessionId == s.sessionId && r.startTime == s.startTime
    ensures r.fingerType == s.fingerType && r.qualityThreshold == s.qualityThreshold
    ensures (r.status == Completed) <==> (result.Finished? && result.success && result.templateBytes.Some?)
    ensures r.status == Completed ==>
      r.progress == 100 && r.template == result.templateBytes && r.quality == Some(85.0) && r.error == s.error
    ensures r.status != Completed ==>
      && r.status == Phase.Failed && r.progress == 0
      && r.template == s.template && r.quality == s.quality
      && r.instruction == "Scan failed. Please try again."
    ensures result.Finished? && r.status != Completed ==> r.error == Some("Timeout or low quality scan")
    ensures result.Threw? ==> r.error == Some("Device error: " + result.message)
  {
    var outcome :=
      match result
      case Finished(success, templateBytes) =>
        if success && templateBytes.Some? then
          s.(status := Completed, progress := 100, instruction := "Fingerprint captured successfully!",
             template := templateBytes, quality := Some(85.0))
        else
          s.(status := Phase.Failed, progress := 0, instruction := "Scan failed. Please try again.",
             error := Some("Timeout or low quality scan"))
      case Threw(message) =>
        s.(status := Phase.Failed, progress := 0, instruction := "Scan failed. Please try again.",
           error := Some("Device error: " + message));
    outcome.(isActive := false)
  }

  /** The end of the background task: write the outcome, then release the device lock whatever happened. */
  function EndProcess(m: Manager, id: string, result: ProcessResult): (r: Manager)
    requires id in m.running
    ensures r.lockFree && r.running == m.running - {id} && r.waiting == m.waiting
    ensures r.sessions.Keys == m.sessions.Keys
    ensures id in m.sessions ==> r.sessions[id] == Conclude(m.sessions[id], result) && !r.sessions[id].isActive
    ensures forall k :: k in m.sessions && k != id ==> r.sessions[k] == m.sessions[k]
  {
    var sessions := if id in m.sessions then m.sessions[id := Conclude(m.sessions[id], result)] else m.sessions;
    m.(sessions := sessions, lockFree := true, running := m.running - {id})
  }

  // ---------------------------------------------------------------------------
  // Eviction

  /** A session that started strictly before now minus the eviction age. */
  predicate Expired(s: EnrollmentSession, now: int)
  {
    s.startTime < now - EvictionAgeMs
  }

  /** The sessions a sweep at `now` keeps: exactly those not yet expired, untouched. */
  function Survivors(sessions: map<string, EnrollmentSession>, now: int): (r: map<string, EnrollmentSession>)
    ensures forall k :: k in r <==> k in sessions && !Expired(sessions[k], now)
    ensures forall k :: k in r ==> r[k] == sessions[k]
  {
    map k | k in sessions && !Expired(sessions[k], now) :: sessions[k]
  }

  /**
    CleanupExpiredSessions: collect the expired keys, then remove each one
    through RemoveSession. Returns the remaining map and the ids disposed.
   */
  method CleanupExpiredSessions(sessions: map<string, EnrollmentSession>, now: int)
    returns (remaining: map<string, EnrollmentSession>, disposed: set<string>)
    ensures remaining == Survivors(sessions, now)
    ensures disposed == set k | k in sessions && Expired(sessions[k], now)
    ensures disposed !! remaining.Keys && disposed + remaining.Keys == sessions.Keys
  {
    var expired := set k | k in sessions && Expired(sessions[k], now);
    var todo := expired;
    remaining := sessions;
    disposed := {};
    while todo != {}
      invariant todo <= expired
      invariant disposed == expired - todo
      invariant remaining.Keys == sessions.Keys - disposed
      invariant forall k :: k in remaining ==> remaining[k] == sessions[k]
      decreases todo
    {
      var k :| k in todo;
      var removed := RemoveSession(remaining, k);
      remaining := removed.0;
      if removed.1.Some? {
        disposed := disposed + {k};
      }
      todo := todo - {k};
    }
    assert remaining.Keys == Survivors(sessions, now).Keys;
  }

  /** A sweep never touches a session that has not expired, however recently it was active. */
  lemma SweepKeepsYoungSessions(sessions: map<string, EnrollmentSession>, now: int, id: string)
    requires id in sessions && !Expired(sessions[id], now)
    ensures id in Survivors(sessions, now) && Survivors(sessions, now)[id] == sessions[id]
  {
  }

  /**
    Age is counted from the start: forwarding a snapshot or concluding the
    process changes nothing about whether a session is swept.
   */
  lemma ActivityDoesNotDelayEviction(m: Manager, id: string, snap: Snapshot, result: ProcessResult, now: int)
    requires id in m.running && id in m.sessions
    ensures Expired(Forward(m, id, snap).sessions[id], now) == Expired(m.sessions[id], now)
    ensures Expired(EndProcess(m, id, result).sessions[id], now) == Expired(m.sessions[id], now)
  {
  }

  /**
    The age limit is five seconds beyond the capture window: a capture whose
    last activity came at most five seconds after its session started has
    already timed out whenever the sweep finds the session expired.
   */
  lemma QuietCaptureTimesOutBeforeEviction(s: EnrollmentSession, capture: Enroll.EnrollState, now: int)
    requires capture.lastActivity - s.startTime <= EvictionAgeMs - SessionTimeoutMs
    requires Expired(s, now)
    ensures !Enroll.InWindow(capture, now, SessionTimeoutMs)
  {
  }

  /**
    Eviction does not wait for the capture: a session whose capture started
    after the session did and last saw a finger touch less than 60 seconds
    ago is still inside its inactivity window, yet once 65 seconds have
    passed since the session started the sweep removes it.
   */
  lemma SweepEvictsLiveCapture(sessions: map<string, EnrollmentSession>, id: string, service: Enroll.EnrollState,
                               runStart: int, touch: int, now: int)
    requires id in sessions && sessions[id].startTime <= runStart <= touch
    requires now - sessions[id].startTime > EvictionAgeMs && now - touch < SessionTimeoutMs
    ensures var capture := Enroll.ResetForEnroll(service, runStart).(capturing := true);
      var touched := Enroll.DeliverAll(capture, [Enroll.Callback(touch, Enroll.FingerTouch)]).state;
      && Enroll.InWindow(touched, now, SessionTimeoutMs)
      && id !in Survivors(sessions, now)
  {
  }

  /** Sweeping twice at the same instant removes nothing more. */
  lemma SweepIdempotent(sessions: map<string, EnrollmentSession>, now: int)
    ensures Survivors(Survivors(sessions, now), now) == Survivors(sessions, now)
  {
  }

  // ---------------------------------------------------------------------------
  // All steps together

  datatype Action =
    | Start(id: string, now: int, fingerType: string, qualityThreshold: int, serviceBuilt: bool)
    | Acquire(id: string)
    | Progress(id: string, snap: Snapshot)
    | End(id: string, result: ProcessResult)
    | Get(id: string)
    | Remove(id: string)
    | Sweep(now: int)

  predicate Enabled(m: Manager, a: Action)
  {
    match a
    case Start(id, _, _, _, _) => Fresh(m, id)
    case Acquire(id) => id in m.waiting && m.lockFree
    case Progress(id, _) => id in m.running
    case End(id, _) => id in m.running
    case Get(_) => true
    case Remove(_) => true
    case Sweep(_) => true
  }

  function Next(m: Manager, a: Action): Manager
    requires Enabled(m, a)
  {
    match a
    case Start(id, now, fingerType, qualityThreshold, serviceBuilt) =>
      StartEnrollmentSession(m, id, now, fingerType, qualityThreshold, serviceBuilt).0
    case Acquire(id) => AcquireDevice(m, id)
    case Progress(id, snap) => Forward(m, id, snap)
    case End(id, result) => EndProcess(m, id, result)
    case Get(_) => m
    case Remove(id) => m.(sessions := RemoveSession(m.sessions, id).0)
    case Sweep(now) => m.(sessions := Survivors(m.sessions, now))
  }

  /** Every step keeps at most one task on the device, and the lock free exactly when none is. */
  lemma NextPreservesInv(m: Manager, a: Action)
    requires Inv(m) && Enabled(m, a)
    ensures Inv(Next(m, a))
  {
    match a {
      case Acquire(id) =>
        assert m.running == {};
        assert Next(m, a).running == {id};
      case End(id, _) =>
        var rest := m.running - {id};
        assert m.running == rest + {id};
        assert |m.running| == |rest| + 1;
        assert rest == {};
      case _ =>
    }
  }

  /** A task that completes makes the session "completed" with the bytes; polling then shows them. */
  lemma CompletedSessionVisible(m: Manager, id: string, bytes: Bytes)
    requires id in m.running && id in m.sessions
    ensures var after := EndProcess(m, id, Finished(true, Some(bytes)));
      && GetSession(after.sessions, id).Some?
      && GetSession(after.sessions, id).value.status == Completed
      && GetSession(after.sessions, id).value.template == Some(bytes)
      && after.lockFree
  {
  }
}
